=== FILE: README.md ===
# Unparsed-event exporter, modelled in Dafny

The exporter is a command-line tool. It queries a tenant's unparsed (generic
schema) events, then aggregates them by `(sensor_id, sensor_type)`. It shows
the resulting log sources as a numbered list, largest first, and lets the user
pick one by number or quit with `q`. It then queries again for that one source,
quoting the key's parts as CQL string literals, and writes each returned
event's `original_data` to a file.

This project models the pure logic between the platform calls as immutable
datatypes and pure functions, and proves what that logic promises:

- `events.dfy`: an event's optional fields, and how a missing, `None` or empty
  `sensor_id`/`sensor_type` becomes `"unknown"`.
- `aggregation.dfy` (`aggregate_by_sensor`): the insertion-ordered dictionary is
  modelled as a list of groups with distinct keys in first-seen order. The
  method runs the source's loop. It is proved to produce a partition in which
  each group holds exactly the events of its key, in input order. `ToMap` gives
  the keyed view.
- `strings.dfy`: Python's string order by code point, since Dafny's `<` on
  sequences means proper prefix. Also `str.strip()`, with the whitespace set of
  `str.isspace()`.
- `listing.dfy`: the sort key `(-len(events), sensor_id, sensor_type)` used by
  both `display_aggregated_sources` and `select_log_source`. It is proved to be
  a strict total order on entries with distinct keys, so the listing is the
  unique sorted permutation of the entries and the displayed numbering is
  deterministic.
- `selection.dfy` (`select_log_source`): one typed line resolves to quitting,
  a key, or a reprompt. The `while True` loop runs over the sequence of lines
  `input()` returns. `int()` is modelled as an optional sign and ASCII digits,
  with single underscores allowed between digits.
- `cql.dfy`: the quote escaping `replace("'", "''")` and the filtered query
  built from it. A reader of `''`-escaped literals recovers the key and the
  time range from the query.
- `pages.dfy`: `get_next_page`, and the row collection of `query_events`.
- `export.dfy` (`export_events_to_file`): the content written and the count
  reported.
- `exporter.dfy`: `main` from the first query to the export. The query service
  is a parameter that maps a query string to the rows it returns.

Behaviours of the code worth knowing:

- Entries of equal size are ordered by `sensor_id`, then by `sensor_type`
  (export_unparsed_events.py:113), so the numbering never depends on the
  order in which sources were first seen.
- Only the number of written events is reported
  (export_unparsed_events.py:173-175). Events without `original_data` are
  skipped silently. `Skipped` is modelled only to state
  `written + skipped == total`.
- An empty aggregation makes `select_log_source` exit with status 1
  (export_unparsed_events.py:130-132). `main` never reaches that, because it
  exits 0 earlier when no events came back (export_unparsed_events.py:264-266;
  `Exporter.Run`).
- The docstring, comment and message of `export_events_to_file`
  (export_unparsed_events.py:158, 168, 175) speak of one line per event. That
  holds only when no `original_data` contains a newline (`JoinNewlines`,
  `LinesJoin`).

## Model

| member | source | states |
|---|---|---|
| Events.Normalise | export_unparsed_events.py:93-97 | the field becomes `"unknown"` exactly when it is missing, `None`, empty or already `"unknown"`; otherwise it is kept; the result is never empty |
| Events.KeyOf | export_unparsed_events.py:93-98 | neither part of an event's key is ever empty |
| Aggregation.AggregateBySensor | export_unparsed_events.py:87-101 | the loop builds a grouping of the events: distinct keys, each group exactly the events of its key in input order and non-empty, every event's key present; the groups together are a permutation of the input, and their sizes sum to the number of events |
| Aggregation.Aggregate | export_unparsed_events.py:87-101 | the aggregation of any event list partitions it: distinct keys, each group exactly the events of its key in input order and non-empty, every event's key present, the groups together a permutation of the input, and sizes summing to its length |
| Aggregation.AddEvent | export_unparsed_events.py:98-99 | `aggregated[key].append(event)` keeps the keys already present in their places, makes the event's key present, and adds exactly that one event to the grouped events |
| Aggregation.AddEventKeepsGrouping | export_unparsed_events.py:98-99 | `aggregated[key].append(event)` turns a grouping of `es` into a grouping of `es + [event]` |
| Aggregation.AddToExistingGroup | export_unparsed_events.py:98-99 | appending to an existing key keeps keys distinct, groups matching and all keys covered |
| Aggregation.AddNewGroup | export_unparsed_events.py:98-99 | a key seen for the first time gets a new one-event group at the end, and the result is still a grouping |
| Aggregation.GroupingUnique | export_unparsed_events.py:87-101 | any two groupings of the same events hold the same groups, differing only in order |
| Aggregation.ToMap | export_unparsed_events.py:101 | `dict(aggregated)` has exactly the groups' keys, each mapped to its group's events |
| Aggregation.AggregateLookup | export_unparsed_events.py:87-101 | a key is in the dictionary exactly when some event has it, and maps to exactly the events with that key, in input order |
| Aggregation.Filter | export_unparsed_events.py:91-99 | the reference group contents: every event in it comes from the input and has the given key, and there are no more of them than events |
| Aggregation.FindKey | export_unparsed_events.py:99 | the lookup of `aggregated[key]` finds the group with that key, or reports that none has it |
| Strings.StrLessWitness | export_unparsed_events.py:113 | Python's string `<`: a proper prefix, or a first differing position with the smaller code point |
| Strings.StrLessIrreflexive | export_unparsed_events.py:113 | no string is less than itself |
| Strings.StrLessAsymmetric | export_unparsed_events.py:113 | string order is asymmetric |
| Strings.StrLessTransitive | export_unparsed_events.py:113 | string order is transitive |
| Strings.StrLessConnected | export_unparsed_events.py:113 | of two different strings one is less than the other |
| Strings.StrLess | export_unparsed_events.py:113 | a proper prefix comes before the longer string, and no string comes before one of its own prefixes (itself included) |
| Listing.BeforeIrreflexive | export_unparsed_events.py:111-114 | no entry sorts before itself |
| Listing.BeforeAsymmetric | export_unparsed_events.py:111-114 | two entries never sort before each other |
| Listing.BeforeTransitive | export_unparsed_events.py:111-114 | the sort key order is transitive |
| Listing.BeforeConnected | export_unparsed_events.py:111-114 | entries with different keys are never tied under `(-len, sensor_id, sensor_type)` |
| Listing.Before | export_unparsed_events.py:113 | a larger group always comes first, an entry never comes before a smaller one, and two entries tied on size and key are not ordered |
| Listing.Insert | export_unparsed_events.py:111-114 | inserting an entry adds exactly that entry, and keeps a sorted listing sorted when no entry has the new entry's key |
| Listing.Sort | export_unparsed_events.py:111-114 | `sorted(...)` gives a permutation of the entries, strictly sorted when their keys are distinct |
| Listing.SortedUnique | export_unparsed_events.py:111-114 | two strictly sorted permutations of the same entries are equal |
| Listing.SortedSources | export_unparsed_events.py:125-128 | the listing is a permutation of the aggregation, of the same length, strictly sorted when the keys are distinct (as a dictionary's are) |
| Listing.ListingIndependentOfOrder | export_unparsed_events.py:111-114 | the listing does not depend on the order of the dictionary's entries |
| Listing.ListingOfEvents | export_unparsed_events.py:111-114 | the listing of the events' aggregation is sorted, has one non-empty entry per key holding exactly that key's events, and its counts sum to the number of events |
| Listing.ListedKeyOccurs | export_unparsed_events.py:116-118 | every listed source is the key of some event |
| Listing.TotalSizePermutation | export_unparsed_events.py:111-117 | reordering the entries keeps the sum of the displayed counts |
| Listing.DisplayRows | export_unparsed_events.py:116-118 | row `i` shows number `i + 1`, the key of the `i`-th listed entry and its event count |
| Strings.TrimStart | export_unparsed_events.py:136 | `lstrip`: only whitespace is cut from the front, and the rest does not start with whitespace |
| Strings.TrimEnd | export_unparsed_events.py:136 | `rstrip`: only whitespace is cut from the back, and the rest does not end with whitespace |
| Strings.Trim | export_unparsed_events.py:136 | `strip`: an infix with only whitespace outside it, neither starting nor ending with whitespace |
| Strings.IsSpace | export_unparsed_events.py:136 | no digit, sign, underscore or `q`/`Q` counts as whitespace, so stripping never cuts into a choice |
| Strings.TrimPadded | export_unparsed_events.py:136 | a string without outer whitespace, padded with any whitespace, strips back to itself |
| Selection.ParseShowInt | export_unparsed_events.py:142 | `int(str(n)) == n` for every integer |
| Selection.ParseInt | export_unparsed_events.py:142 | an accepted string ends in a digit and holds only digits, signs and underscores |
| Selection.Resolve | export_unparsed_events.py:136-151 | a line quits exactly when it strips to `q`/`Q`; a selection is always one of the listed keys and comes from a line that parses as an integer; with no keys nothing is selected |
| Selection.ResolveCases | export_unparsed_events.py:136-151 | a line quits exactly when it strips to `q`/`Q`, selects exactly when it strips to an integer `n` in `1..len` and then selects the `n`-th key, and otherwise reprompts as out of range or not a number |
| Selection.ResolveNumber | export_unparsed_events.py:136-147 | typing `i` with any surrounding whitespace selects the `i`-th listed key |
| Selection.Choices | export_unparsed_events.py:134-151 | one choice per typed line, and the `p`-th choice is what the `p`-th line resolves to on its own |
| Selection.Decide | export_unparsed_events.py:134-154 | the loop never reports an empty aggregation; it quits only if some line quit and chooses a key only if some line selected it |
| Selection.DecideFirst | export_unparsed_events.py:134-154 | the loop quits or selects `k` exactly when some line does so and every earlier line reprompted |
| Selection.DecideEndOfInput | export_unparsed_events.py:134-154 | input runs out exactly when every line reprompted |
| Selection.SelectLogSource | export_unparsed_events.py:130-132 | the function stops before prompting exactly when the aggregation is empty |
| Selection.SelectLogSourceChosen | export_unparsed_events.py:123-151 | a chosen key is the listing's entry `i` for a line that parsed to `i`, after lines that all reprompted |
| Selection.PromptSelectsShown | export_unparsed_events.py:134-147 | after any rejected lines, typing the number `i` selects the `i`-th key |
| Selection.DisplayedNumberSelects | export_unparsed_events.py:116-147 | the number displayed next to a row is the input that selects that row's key |
| Cql.Escape | export_unparsed_events.py:281-282 | escaping adds one character per quote |
| Cql.UnescapeEscape | export_unparsed_events.py:281-282 | collapsing `''` back to `'` recovers the original value, and escaped text has only paired quotes |
| Cql.EscapeUnescape | export_unparsed_events.py:281-282 | every text with paired quotes is the escaping of exactly one value |
| Cql.EscapedRunsEven | export_unparsed_events.py:281-282 | every maximal run of quotes in an escaped value has even length |
| Cql.ReadEscaped | export_unparsed_events.py:281-283 | the literal `'` + escaped value + `'` reads back as exactly the value, ending at its closing quote |
| Cql.InitialQuery | export_unparsed_events.py:252 | the first query carries the time range after `FROM generic EARLIEST=` and does not read as a filtered query |
| Cql.FilteredQuery | export_unparsed_events.py:281-283 | the filtered query reads back as exactly the selected key and the time range, whatever quotes the key contains |
| Cql.FilteredQueryInjective | export_unparsed_events.py:281-283 | different keys give different filtered queries |
| Pages.NextPage | export_unparsed_events.py:32-37 | the result is the `next` of the first result whose `next` is present and non-empty, and `None` exactly when no result has one |
| Pages.CollectRowsAppend | export_unparsed_events.py:67-82 | collecting rows over two result lists one after the other collects over their concatenation, in order |
| Pages.CollectRows | export_unparsed_events.py:68-70 | a row is collected exactly when it is a row of one of the results, and results without rows add nothing |
| Pages.CollectRowsOne | export_unparsed_events.py:68-70 | one result contributes exactly its own rows, which with the concatenation lemma fixes the rows collected from any list |
| Export.ExportEventsToFile | export_unparsed_events.py:157-175 | the loop writes each present `original_data` followed by a newline, in order; the count is the number written; written plus skipped is the number of events |
| Export.Written | export_unparsed_events.py:165-173 | written plus skipped events is all the events, and every event is written when all have `original_data` |
| Export.Join | export_unparsed_events.py:170-172 | the file has at least one character per written value and ends in a newline once anything is written |
| Export.WrittenAreThePresentData | export_unparsed_events.py:165-173 | a value is written exactly when some event has it as its `original_data` |
| Export.WrittenAppend | export_unparsed_events.py:165-173 | the values written for two event lists in a row are those written for their concatenation |
| Export.JoinNewlines | export_unparsed_events.py:170-172 | the file holds at least one newline per written value, and exactly one when no value holds a newline |
| Export.LinesJoin | export_unparsed_events.py:170-172 | when no value holds a newline, reading the file back line by line gives exactly the written values |
| Exporter.ListingOf | export_unparsed_events.py:264-273 | the listing shown is a strictly sorted permutation of the aggregation, non-empty exactly when events came back, with counts summing to the number of events |
| Exporter.Run | export_unparsed_events.py:252-293 | a run stops before prompting exactly when the first query returns no events, never reaches the empty-aggregation exit of `select_log_source`, and an export always filters on a key of the listing shown |
| Exporter.ExportUsesShownKey | export_unparsed_events.py:276-293 | an export queries for the listed key numbered by the deciding line and writes what that query returned |
| Exporter.ShownNumberExports | export_unparsed_events.py:276-293 | typing a listed number after rejected lines exports that entry's source |
| Exporter.ExportedKeyOccurs | export_unparsed_events.py:270-286 | the exported source's key is the key of one of the first query's events |

## Left out

- `validate_parser.py`: it reads a file, makes one remote validation call and
  maps the result to an exit status. None of that is modelled.
- `query_events`: the client library, its context manager and the
  subscription/page calls are left out. The model keeps only the next-page
  pick (`NextPage`) and the row collection over result lists
  (`CollectRows`). The pagination `while` loop is not modelled as a loop,
  because each iteration is a remote call. In `Exporter.Run` the whole query
  is the `service` parameter.
- Pages.PageResult: `r.result` being falsy and `r.result.rows` being `None` or
  empty are folded into one optional row list. Both add no rows.
- `max_rows` and page size only reach the service, which is a parameter.
- Argument parsing, `GraphQLService` set-up and authentication are left out.
  The environment aliases are only help text; the code does not implement
  them.
- Printing, the banners and number formatting are left out, as are
  `sys.exit` statuses (modelled as outcomes), `KeyboardInterrupt`, and opening
  and writing the file and `Path.absolute()`. `ExportEventsToFile` returns the
  content instead of writing it.
- Exporter.Run: a failing query or file write (the `except Exception` paths)
  is not modelled. The service always returns rows.
- Selection.ParseInt: Python's `int()` also accepts non-ASCII decimal digits;
  only ASCII digits are modelled. Python 3.11 and later also reject a numeral
  of more than 4300 digits (`sys.int_info.default_max_str_digits`) with
  `ValueError`. The model has no such limit. For such a line the program asks
  for "a valid number" where `Resolve` gives `Reprompt(OutOfRange)`. A line
  such as 4300 zeros followed by `1` is rejected by the program but selects
  the first key in the model.
- Events.Normalise: fields are strings or missing. `str()` of other values,
  and the falsiness of non-string values such as `0`, are not modelled.
- Selection.SelectLogSource: running out of input is the `EndOfInput`
  outcome. The source does not catch `EOFError`, so the program would stop
  with a traceback there.

=== FILE: aggregation.dfy ===
/** `aggregate_by_sensor`: one pass over the events, appending each to the
    list of its `(sensor_id, sensor_type)` key. The returned `dict` keeps its
    keys in first-seen order, so it is modelled as a list of groups with
    distinct keys in that order; `ToMap` gives the keyed view. */
module Aggregation {
  import opened Seqs
  import opened Events

  /** One entry of the aggregation: a key and the events filed under it. */
  datatype Group = Group(key: SourceKey, events: seq<Event>)

  /** The keys of the groups, in order. */
  function Keys(gs: seq<Group>): (ks: seq<SourceKey>)
    ensures |ks| == |gs|
    ensures forall j :: 0 <= j < |gs| ==> ks[j] == gs[j].key
    decreases |gs|
  {
    if |gs| == 0 then [] else Keys(gs[..|gs| - 1]) + [gs[|gs| - 1].key]
  }

  /** No key occurs twice (a dictionary's keys are unique). */
  predicate DistinctKeys(gs: seq<Group>) {
    forall i, j :: 0 <= i < j < |gs| ==> gs[i].key != gs[j].key
  }

  /** Reference definition of one group: the events of `es` whose key is `k`,
      in input order. */
  function Filter(es: seq<Event>, k: SourceKey): (r: seq<Event>)
    ensures |r| <= |es|
    ensures forall x :: x in r ==> x in es && KeyOf(x) == k
    decreases |es|
  {
    if |es| == 0 then []
    else Filter(es[..|es| - 1], k) + (if KeyOf(es[|es| - 1]) == k then [es[|es| - 1]] else [])
  }

  /** Every event's key is that of some group, and each group holds exactly
      the events with its key, in input order, and at least one of them. */
  predicate IsGroupingOf(gs: seq<Group>, es: seq<Event>) {
    DistinctKeys(gs) && GroupsMatch(gs, es) && Covers(gs, es)
  }

  /** Each group holds exactly the events with its key, and at least one. */
  predicate GroupsMatch(gs: seq<Group>, es: seq<Event>) {
    forall j :: 0 <= j < |gs| ==> gs[j].events == Filter(es, gs[j].key) && gs[j].events != []
  }

  /** Every event's key is the key of some group. */
  predicate Covers(gs: seq<Group>, es: seq<Event>) {
    forall i :: 0 <= i < |es| ==> KeyOf(es[i]) in Keys(gs)
  }

  /** All grouped events, group after group. */
  function Flatten(gs: seq<Group>): seq<Event>
    decreases |gs|
  {
    if |gs| == 0 then [] else Flatten(gs[..|gs| - 1]) + gs[|gs| - 1].events
  }

  /** Sum of the group sizes. */
  function TotalSize(gs: seq<Group>): nat
    decreases |gs|
  {
    if |gs| == 0 then 0 else TotalSize(gs[..|gs| - 1]) + |gs[|gs| - 1].events|
  }

  /** Position of the group with key `k`, or `|gs|` when there is none. */
  function FindKey(gs: seq<Group>, k: SourceKey): (i: nat)
    ensures i <= |gs|
    ensures i < |gs| ==> gs[i].key == k
    ensures i == |gs| ==> k !in Keys(gs)
    decreases |gs|
  {
    if |gs| == 0 then 0
    else if gs[0].key == k then 0
    else 1 + FindKey(gs[1..], k)
  }

  /** `aggregated[key].append(event)` on a `defaultdict(list)`: the keys
      already present keep their places, the event's key is present afterwards
      (at the end when it is new), and exactly that event is added. */
  function AddEvent(gs: seq<Group>, e: Event): (r: seq<Group>)
    ensures |r| == |gs| || |r| == |gs| + 1
    ensures forall j :: 0 <= j < |gs| ==> r[j].key == gs[j].key
    ensures KeyOf(e) in Keys(r)
    ensures multiset(Flatten(r)) == multiset(Flatten(gs)) + multiset{e}
  {
    var k := KeyOf(e);
    var i := FindKey(gs, k);
    if i < |gs| then
      FlattenAppendToGroup(gs, i, e);
      var r := gs[i := Group(k, gs[i].events + [e])];
      assert Keys(r)[i] == k;
      r
    else
      FlattenSnoc(gs, Group(k, [e]));
      var r := gs + [Group(k, [e])];
      assert Keys(r)[|gs|] == k;
      r
  }

  /** The result of `aggregate_by_sensor(events)`. Aggregation is a partition
      of the input: every event is filed under its own key and nowhere else,
      each group holds the events of its key in input order, and the groups
      together hold exactly the input events. */
  function Aggregate(es: seq<Event>): (gs: seq<Group>)
    ensures IsGroupingOf(gs, es)
    ensures multiset(Flatten(gs)) == multiset(es)
    ensures TotalSize(gs) == |es|
    decreases |es|
  {
    if |es| == 0 then []
    else
      var init, e := es[..|es| - 1], es[|es| - 1];
      var prev := Aggregate(init);
      SplitLast(es);
      AddEventKeepsGrouping(prev, init, e);
      var r := AddEvent(prev, e);
      SizeFromMultiset(r, es);
      r
  }

  /** `aggregate_by_sensor` as the loop the source runs. */
  method AggregateBySensor(es: seq<Event>) returns (gs: seq<Group>)
    ensures IsGroupingOf(gs, es)
    ensures multiset(Flatten(gs)) == multiset(es)
    ensures TotalSize(gs) == |es|
  {
    gs := [];
    var n := 0;
    while n < |es|
      invariant 0 <= n <= |es|
      invariant gs == Aggregate(es[..n])
    {
      assert es[..n + 1][..n] == es[..n];
      assert es[..n + 1][n] == es[n];
      assert Aggregate(es[..n + 1]) == AddEvent(Aggregate(es[..n]), es[n]);
      gs := AddEvent(gs, es[n]);
      n := n + 1;
    }
    assert es[..n] == es;
  }

  // ---------------------------------------------------------------------------
  // Properties
  // ---------------------------------------------------------------------------

  /** A grouping of `es` is unique up to the order of its groups. */
  lemma {:induction false} GroupingUnique(gs: seq<Group>, hs: seq<Group>, es: seq<Event>)
    requires IsGroupingOf(gs, es) && IsGroupingOf(hs, es)
    ensures multiset(gs) == multiset(hs)
  {
    GroupingSet(gs, es);
    GroupingSet(hs, es);
    DistinctKeysMultiset(gs);
    DistinctKeysMultiset(hs);
  }

  /** The groups of a grouping are exactly the pairs (key, events of that key)
      for the keys that occur. */
  lemma {:induction false} GroupingSet(gs: seq<Group>, es: seq<Event>)
    requires IsGroupingOf(gs, es)
    ensures forall g :: g in gs <==> Filter(es, g.key) == g.events && g.events != []
  {
    forall g: Group | Filter(es, g.key) == g.events && g.events != []
      ensures g in gs
    {
      var x := g.events[0];
      assert x in es && KeyOf(x) == g.key;
      var i :| 0 <= i < |es| && es[i] == x;
      assert g.key in Keys(gs);
      var j :| 0 <= j < |gs| && Keys(gs)[j] == g.key;
      assert gs[j] == g;
    }
  }

  /** A sequence without repeated keys has no repeated elements. */
  lemma {:induction false} DistinctKeysMultiset(gs: seq<Group>)
    requires DistinctKeys(gs)
    ensures forall g :: multiset(gs)[g] <= 1
    decreases |gs|
  {
    if |gs| > 0 {
      var init := gs[..|gs| - 1];
      assert gs == init + [gs[|gs| - 1]];
      DistinctKeysMultiset(init);
      assert gs[|gs| - 1] !in init;
    }
  }

  /** The keyed view `dict(aggregated)`. */
  function ToMap(gs: seq<Group>): (m: map<SourceKey, seq<Event>>)
    requires DistinctKeys(gs)
    ensures forall k :: k in m <==> k in Keys(gs)
    ensures forall j :: 0 <= j < |gs| ==> m[gs[j].key] == gs[j].events
    decreases |gs|
  {
    if |gs| == 0 then map[]
    else
      var init, g := gs[..|gs| - 1], gs[|gs| - 1];
      DropLastGroup(gs);
      ToMap(init)[g.key := g.events]
  }

  /** The groups before the last one keep distinct keys, none of them the
      last one's. */
  lemma DropLastGroup(gs: seq<Group>)
    requires DistinctKeys(gs) && |gs| > 0
    ensures DistinctKeys(gs[..|gs| - 1])
    ensures Keys(gs) == Keys(gs[..|gs| - 1]) + [gs[|gs| - 1].key]
    ensures forall j :: 0 <= j < |gs| - 1 ==> gs[..|gs| - 1][j] == gs[j] && gs[j].key != gs[|gs| - 1].key
  {
  }

  /** Looking a key up in the aggregation gives exactly the events with that
      key, in input order; the keys present are exactly those of the events. */
  lemma {:induction false} AggregateLookup(es: seq<Event>, k: SourceKey)
    ensures DistinctKeys(Aggregate(es))
    ensures k in ToMap(Aggregate(es)) <==> exists i :: 0 <= i < |es| && KeyOf(es[i]) == k
    ensures k in ToMap(Aggregate(es)) ==> ToMap(Aggregate(es))[k] == Filter(es, k)
  {
    var gs := Aggregate(es);
    if k in Keys(gs) {
      var j :| 0 <= j < |gs| && Keys(gs)[j] == k;
      var x := gs[j].events[0];
      assert x in Filter(es, k);
      var i :| 0 <= i < |es| && es[i] == x;
    }
  }

  // ---------------------------------------------------------------------------
  // Helper lemmas
  // ---------------------------------------------------------------------------

  lemma {:induction false} FilterSnoc(es: seq<Event>, e: Event, k: SourceKey)
    ensures Filter(es + [e], k) == Filter(es, k) + (if KeyOf(e) == k then [e] else [])
  {
    assert (es + [e])[..|es + [e]| - 1] == es;
  }

  /** Filtering by a key no event carries gives nothing. */
  lemma {:induction false} FilterAbsent(es: seq<Event>, k: SourceKey)
    requires forall i :: 0 <= i < |es| ==> KeyOf(es[i]) != k
    ensures Filter(es, k) == []
    decreases |es|
  {
    if |es| > 0 {
      var init := es[..|es| - 1];
      assert forall i :: 0 <= i < |init| ==> init[i] == es[i];
      FilterAbsent(init, k);
    }
  }

  lemma {:induction false} FlattenSnoc(gs: seq<Group>, g: Group)
    ensures Flatten(gs + [g]) == Flatten(gs) + g.events
  {
    assert (gs + [g])[..|gs + [g]| - 1] == gs;
  }

  /** Appending an event to one group adds exactly that event to the
      flattened multiset. */
  lemma {:induction false} FlattenAppendToGroup(gs: seq<Group>, i: nat, e: Event)
    requires i < |gs|
    ensures multiset(Flatten(gs[i := Group(gs[i].key, gs[i].events + [e])])) == multiset(Flatten(gs)) + multiset{e}
    decreases |gs|
  {
    var n := |gs| - 1;
    var gs' := gs[i := Group(gs[i].key, gs[i].events + [e])];
    assert Flatten(gs) == Flatten(gs[..n]) + gs[n].events;
    assert Flatten(gs') == Flatten(gs'[..n]) + gs'[n].events;
    if i == n {
      assert gs'[..n] == gs[..n];
      assert gs'[n].events == gs[n].events + [e];
    } else {
      assert gs'[..n] == gs[..n][i := Group(gs[..n][i].key, gs[..n][i].events + [e])];
      assert gs'[n] == gs[n];
      FlattenAppendToGroup(gs[..n], i, e);
    }
  }

  /** Groups holding exactly the input events have sizes summing to its length. */
  lemma SizeFromMultiset(gs: seq<Group>, es: seq<Event>)
    requires multiset(Flatten(gs)) == multiset(es)
    ensures TotalSize(gs) == |es|
  {
    TotalSizeIsFlattenLength(gs);
    assert |multiset(Flatten(gs))| == |Flatten(gs)|;
    assert |multiset(es)| == |es|;
  }

  lemma {:induction false} TotalSizeIsFlattenLength(gs: seq<Group>)
    ensures TotalSize(gs) == |Flatten(gs)|
    decreases |gs|
  {
    if |gs| > 0 {
      TotalSizeIsFlattenLength(gs[..|gs| - 1]);
    }
  }

  /** One step of the loop keeps the grouping property. */
  lemma {:induction false} AddEventKeepsGrouping(gs: seq<Group>, es: seq<Event>, e: Event)
    requires IsGroupingOf(gs, es)
    ensures IsGroupingOf(AddEvent(gs, e), es + [e])
  {
    var i := FindKey(gs, KeyOf(e));
    if i < |gs| {
      AddToExistingGroup(gs, es, e, i);
    } else {
      AddNewGroup(gs, es, e);
    }
  }

  lemma AddToExistingGroup(gs: seq<Group>, es: seq<Event>, e: Event, i: nat)
    requires IsGroupingOf(gs, es)
    requires i < |gs| && gs[i].key == KeyOf(e)
    ensures IsGroupingOf(gs[i := Group(KeyOf(e), gs[i].events + [e])], es + [e])
  {
    var r := gs[i := Group(KeyOf(e), gs[i].events + [e])];
    ExistingGroupMatches(gs, es, e, i);
    SameKeysDistinct(gs, r);
    ExistingGroupCovers(gs, es, e, i);
  }

  lemma SameKeysDistinct(gs: seq<Group>, r: seq<Group>)
    requires DistinctKeys(gs)
    requires |r| == |gs| && forall j :: 0 <= j < |r| ==> r[j].key == gs[j].key
    ensures DistinctKeys(r)
  {
  }

  lemma ExistingGroupCovers(gs: seq<Group>, es: seq<Event>, e: Event, i: nat)
    requires Covers(gs, es)
    requires i < |gs| && gs[i].key == KeyOf(e)
    ensures Covers(gs[i := Group(KeyOf(e), gs[i].events + [e])], es + [e])
  {
    var r := gs[i := Group(KeyOf(e), gs[i].events + [e])];
    forall x | 0 <= x < |es + [e]| ensures KeyOf((es + [e])[x]) in Keys(r) {
      var k' := KeyOf((es + [e])[x]);
      var j := if x < |es| then FindKey(gs, k') else i;
      assert j < |gs| && gs[j].key == k' by {
        if x < |es| { assert (es + [e])[x] == es[x]; }
      }
      assert Keys(r)[j] == k';
    }
  }

  lemma {:induction false} ExistingGroupMatches(gs: seq<Group>, es: seq<Event>, e: Event, i: nat)
    requires GroupsMatch(gs, es) && DistinctKeys(gs)
    requires i < |gs| && gs[i].key == KeyOf(e)
    ensures GroupsMatch(gs[i := Group(KeyOf(e), gs[i].events + [e])], es + [e])
  {
    var r := gs[i := Group(KeyOf(e), gs[i].events + [e])];
    forall j | 0 <= j < |r|
      ensures r[j].events == Filter(es + [e], r[j].key) && r[j].events != []
    {
      FilterSnoc(es, e, gs[j].key);
      if j != i {
        assert gs[j].key != gs[i].key by {
          if j < i { assert gs[j].key != gs[i].key; } else { assert gs[i].key != gs[j].key; }
        }
      }
    }
  }

  lemma AddNewGroup(gs: seq<Group>, es: seq<Event>, e: Event)
    requires IsGroupingOf(gs, es)
    requires KeyOf(e) !in Keys(gs)
    ensures IsGroupingOf(gs + [Group(KeyOf(e), [e])], es + [e])
  {
    NewGroupMatches(gs, es, e);
    NewGroupCovers(gs, es, e);
    NewGroupDistinct(gs, Group(KeyOf(e), [e]));
  }

  lemma NewGroupCovers(gs: seq<Group>, es: seq<Event>, e: Event)
    requires Covers(gs, es)
    ensures Covers(gs + [Group(KeyOf(e), [e])], es + [e])
  {
    var r := gs + [Group(KeyOf(e), [e])];
    assert r[..|r| - 1] == gs;
    forall x | 0 <= x < |es + [e]| ensures KeyOf((es + [e])[x]) in Keys(r) {
      if x < |es| { assert (es + [e])[x] == es[x]; }
    }
  }

  lemma NewGroupDistinct(gs: seq<Group>, g: Group)
    requires DistinctKeys(gs)
    requires g.key !in Keys(gs)
    ensures DistinctKeys(gs + [g])
  {
    var r := gs + [g];
    forall a, b | 0 <= a < b < |r| ensures r[a].key != r[b].key {
      if b == |gs| {
        assert gs[a].key in Keys(gs);
      }
    }
  }

  lemma {:induction false} NewGroupMatches(gs: seq<Group>, es: seq<Event>, e: Event)
    requires GroupsMatch(gs, es) && Covers(gs, es)
    requires KeyOf(e) !in Keys(gs)
    ensures GroupsMatch(gs + [Group(KeyOf(e), [e])], es + [e])
  {
    var k := KeyOf(e);
    var r := gs + [Group(k, [e])];
    forall x | 0 <= x < |es| ensures KeyOf(es[x]) != k {
      assert KeyOf(es[x]) in Keys(gs);
    }
    FilterAbsent(es, k);
    forall j | 0 <= j < |r|
      ensures r[j].events == Filter(es + [e], r[j].key)
    {
      FilterSnoc(es, e, r[j].key);
      if j < |gs| {
        assert gs[j].key in Keys(gs);
      }
    }
  }
}

=== FILE: cql.dfy ===
/** The two query strings the exporter sends, and the quoting of the selected
    key's parts inside the second one: every `'` is doubled before the value
    is placed between single quotes. */
module Cql {
  import opened Wrappers
  import opened Strings
  import opened Events

  const Quote: char := '\''

  /** `s.replace("'", "''")` */
  function Escape(s: string): (r: string)
    ensures |r| == |s| + Count(s, Quote)
    decreases |s|
  {
    if |s| == 0 then ""
    else (if s[0] == Quote then [Quote, Quote] else [s[0]]) + Escape(s[1..])
  }

  /** Collapses each `''` back to `'`. */
  function Unescape(t: string): string
    decreases |t|
  {
    if |t| == 0 then ""
    else if |t| >= 2 && t[0] == Quote && t[1] == Quote then [Quote] + Unescape(t[2..])
    else [t[0]] + Unescape(t[1..])
  }

  /** Strings in which quotes only occur as adjacent pairs, read left to right. */
  predicate PairedQuotes(t: string)
    decreases |t|
  {
    if |t| == 0 then true
    else if t[0] != Quote then PairedQuotes(t[1..])
    else |t| >= 2 && t[1] == Quote && PairedQuotes(t[2..])
  }

  lemma {:induction false} UnescapeEscape(s: string)
    ensures Unescape(Escape(s)) == s
    ensures PairedQuotes(Escape(s))
    decreases |s|
  {
    if |s| > 0 {
      UnescapeEscape(s[1..]);
      var e := Escape(s);
      if s[0] == Quote {
        assert e[2..] == Escape(s[1..]);
      } else {
        assert e[1..] == Escape(s[1..]);
      }
    }
  }

  /** Escaping is onto the strings with paired quotes, so together with
      `UnescapeEscape` it is a bijection between all strings and those. */
  lemma {:induction false} EscapeUnescape(t: string)
    requires PairedQuotes(t)
    ensures Escape(Unescape(t)) == t
    decreases |t|
  {
    if |t| > 0 {
      if t[0] != Quote {
        EscapeUnescape(t[1..]);
        EscapeCons(t[0], Unescape(t[1..]));
        assert t == [t[0]] + t[1..];
      } else {
        EscapeUnescape(t[2..]);
        EscapeCons(Quote, Unescape(t[2..]));
        assert t == [Quote, Quote] + t[2..];
      }
    }
  }

  /** Escaping works character by character from the front. */
  lemma EscapeCons(c: char, s: string)
    ensures Escape([c] + s) == (if c == Quote then [Quote, Quote] else [c]) + Escape(s)
  {
    assert ([c] + s)[1..] == s;
  }

  /** A maximal run of quotes `t[i..j]`. */
  predicate QuoteRun(t: string, i: int, j: int) {
    && 0 <= i < j <= |t|
    && (forall p :: i <= p < j ==> t[p] == Quote)
    && (i == 0 || t[i - 1] != Quote)
    && (j == |t| || t[j] != Quote)
  }

  /** In a string with paired quotes every maximal run of quotes has even
      length. */
  lemma {:induction false} PairedRunsEven(t: string, i: int, j: int)
    requires PairedQuotes(t) && QuoteRun(t, i, j)
    ensures (j - i) % 2 == 0
    decreases |t|
  {
    if t[0] != Quote {
      assert i >= 1;
      assert QuoteRun(t[1..], i - 1, j - 1);
      PairedRunsEven(t[1..], i - 1, j - 1);
    } else if i == 0 {
      assert j >= 2 by {
        if j == 1 { assert t[1] == Quote; }
      }
      if j > 2 {
        assert forall p :: 0 <= p < j - 2 ==> t[2..][p] == t[p + 2];
        assert j - 2 == |t[2..]| || t[2..][j - 2] == t[j];
        PairedRunsEven(t[2..], 0, j - 2);
      }
    } else {
      assert i >= 3;
      assert forall p :: i - 2 <= p < j - 2 ==> t[2..][p] == t[p + 2];
      assert t[2..][i - 3] == t[i - 1];
      assert j - 2 == |t[2..]| || t[2..][j - 2] == t[j];
      PairedRunsEven(t[2..], i - 2, j - 2);
    }
  }

  /** Every maximal run of quotes in an escaped value has even length, so no
      quote in it can end the literal. */
  lemma EscapedRunsEven(s: string, i: int, j: int)
    requires QuoteRun(Escape(s), i, j)
    ensures (j - i) % 2 == 0
  {
    UnescapeEscape(s);
    PairedRunsEven(Escape(s), i, j);
  }

  // ---------------------------------------------------------------------------
  // Reading a quoted literal back
  // ---------------------------------------------------------------------------

  /** How a query language with `''`-escaping reads a literal whose opening
      quote has been consumed: `''` stands for one quote, a single `'` ends the
      literal. Gives the value and what follows the closing quote, or `None`
      for an unterminated literal. */
  function ReadLiteral(t: string): (r: Option<(string, string)>)
    ensures r.Some? ==> |r.value.1| < |t|
    decreases |t|
  {
    if |t| == 0 then None
    else if t[0] == Quote then
      if |t| >= 2 && t[1] == Quote then
        match ReadLiteral(t[2..])
        case Some((v, rest)) => Some(([Quote] + v, rest))
        case None => None
      else Some(("", t[1..]))
    else
      match ReadLiteral(t[1..])
      case Some((v, rest)) => Some(([t[0]] + v, rest))
      case None => None
  }

  /** The literal `'` + Escape(s) + `'` reads back as exactly `s`, stopping at
      its closing quote, whenever no quote follows directly. */
  lemma {:induction false} ReadEscaped(s: string, rest: string)
    requires |rest| == 0 || rest[0] != Quote
    ensures ReadLiteral(Escape(s) + [Quote] + rest) == Some((s, rest))
    decreases |s|
  {
    var t := Escape(s) + [Quote] + rest;
    if |s| == 0 {
      assert t == [Quote] + rest;
      assert t[1..] == rest;
    } else if s[0] == Quote {
      assert t[2..] == Escape(s[1..]) + [Quote] + rest;
      ReadEscaped(s[1..], rest);
      assert s == [Quote] + s[1..];
    } else {
      assert t[1..] == Escape(s[1..]) + [Quote] + rest;
      ReadEscaped(s[1..], rest);
      assert s == [s[0]] + s[1..];
    }
  }

  // ---------------------------------------------------------------------------
  // The queries
  // ---------------------------------------------------------------------------

  const FilterPrefix: string := "FROM generic WHERE sensor_id='"
  const FilterMiddle: string := " AND sensor_type='"
  const FilterSuffix: string := " EARLIEST="

  /** `f"FROM generic EARLIEST={time_range}"`: it carries the time range and,
      unlike the filtered query, no sensor condition. */
  function InitialQuery(timeRange: string): (q: string)
    ensures StripPrefix("FROM generic EARLIEST=", q) == Some(timeRange)
    ensures ParseFilteredQuery(q) == None
  {
    var q := "FROM generic EARLIEST=" + timeRange;
    StripPrefixAppend("FROM generic EARLIEST=", timeRange);
    assert q[13] == 'E' && FilterPrefix[13] == 'W';
    q
  }

  /** The query for the selected source, with both key parts escaped. It
      names exactly the selected key and time range, however many quotes the
      key holds: a reader of the query recovers both parts. */
  function FilteredQuery(k: SourceKey, timeRange: string): (q: string)
    ensures ParseFilteredQuery(q) == Some((k, timeRange))
  {
    var tail2 := FilterSuffix + timeRange;
    var lit2 := Escape(k.sensorType) + [Quote] + tail2;
    var tail1 := FilterMiddle + lit2;
    var lit1 := Escape(k.sensorId) + [Quote] + tail1;
    StripPrefixAppend(FilterPrefix, lit1);
    ReadEscaped(k.sensorId, tail1);
    StripPrefixAppend(FilterMiddle, lit2);
    ReadEscaped(k.sensorType, tail2);
    StripPrefixAppend(FilterSuffix, timeRange);
    FilterPrefix + lit1
  }

  /** The rest of `s` after the prefix `p`, if `s` starts with `p`. */
  function StripPrefix(p: string, s: string): (r: Option<string>)
    ensures r.Some? <==> |p| <= |s| && s[..|p|] == p
    ensures r.Some? ==> s == p + r.value
  {
    if |p| <= |s| && s[..|p|] == p then
      assert s == p + s[|p|..];
      Some(s[|p|..])
    else None
  }

  lemma StripPrefixAppend(p: string, s: string)
    ensures StripPrefix(p, p + s) == Some(s)
  {
    assert (p + s)[..|p|] == p;
    assert (p + s)[|p|..] == s;
  }

  /** Reads a filtered query back: its sensor id literal, its sensor type
      literal and its time range. */
  function ParseFilteredQuery(q: string): Option<(SourceKey, string)> {
    match StripPrefix(FilterPrefix, q)
    case None => None
    case Some(r0) =>
      match ReadLiteral(r0)
      case None => None
      case Some((id, r1)) =>
        match StripPrefix(FilterMiddle, r1)
        case None => None
        case Some(r2) =>
          match ReadLiteral(r2)
          case None => None
          case Some((ty, r3)) =>
            match StripPrefix(FilterSuffix, r3)
            case None => None
            case Some(timeRange) => Some((SourceKey(id, ty), timeRange))
  }

  /** Different keys give different filtered queries. */
  lemma FilteredQueryInjective(a: SourceKey, b: SourceKey, timeRange: string)
    requires a != b
    ensures FilteredQuery(a, timeRange) != FilteredQuery(b, timeRange)
  {
  }
}

=== FILE: events.dfy ===
/** The event record returned by the query service, as far as the exporter
    looks at it, and the `(sensor_id, sensor_type)` key it is grouped by. */
module Events {
  import opened Wrappers

  /** One event row. A field that is missing from the row or holds `None` is
      `None`; only string values are modelled. */
  datatype Event = Event(sensorId: Option<string>, sensorType: Option<string>, originalData: Option<string>)

  /** The aggregation key: a `(sensor_id, sensor_type)` pair. */
  datatype SourceKey = SourceKey(sensorId: string, sensorType: string)

  const Unknown: string := "unknown"

  /** `value or 'unknown'` followed by `str(...)`: a missing, `None` or empty
      (falsy) field becomes "unknown", any other string is kept as is. */
  function Normalise(field: Option<string>): (r: string)
    ensures r != ""
    ensures r == Unknown <==> field == None || field == Some("") || field == Some(Unknown)
    ensures field.Some? && field.value != "" ==> r == field.value
  {
    match field
    case Some(v) => if v == "" then Unknown else v
    case None => Unknown
  }

  /** The key an event is filed under. */
  function KeyOf(e: Event): (k: SourceKey)
    ensures k.sensorId != "" && k.sensorType != ""
  {
    SourceKey(Normalise(e.sensorId), Normalise(e.sensorType))
  }
}

=== FILE: export.dfy ===
/** `export_events_to_file`: the text written is `str(original_data) + '\n'`
    for every event whose `original_data` is not `None`, in input order, and
    the reported count is the number of such events. Opening and writing the
    file is not modelled; the method returns the content instead. */
module Export {
  import opened Wrappers
  import opened Strings
  import opened Events

  /** The `original_data` values that get written, in order. */
  function Written(es: seq<Event>): (ws: seq<string>)
    ensures |ws| + Skipped(es) == |es|
    ensures (forall i :: 0 <= i < |es| ==> es[i].originalData.Some?) ==> |ws| == |es|
    decreases |es|
  {
    if |es| == 0 then []
    else
      var last := es[|es| - 1];
      Written(es[..|es| - 1]) + (if last.originalData.Some? then [last.originalData.value] else [])
  }

  /** Number of events skipped for lack of `original_data`. */
  function Skipped(es: seq<Event>): nat
    decreases |es|
  {
    if |es| == 0 then 0
    else Skipped(es[..|es| - 1]) + (if es[|es| - 1].originalData.None? then 1 else 0)
  }

  /** Each value followed by a newline, all concatenated: the file has at
      least one character per value and ends in a newline once anything is
      written. */
  function Join(ws: seq<string>): (t: string)
    ensures |t| >= |ws|
    ensures |ws| > 0 ==> t[|t| - 1] == '\n'
    decreases |ws|
  {
    if |ws| == 0 then "" else Join(ws[..|ws| - 1]) + ws[|ws| - 1] + "\n"
  }

  /** The loop of `export_events_to_file`, returning what it writes and the
      count it reports. */
  method ExportEventsToFile(es: seq<Event>) returns (content: string, count: nat)
    ensures content == Join(Written(es))
    ensures count == |Written(es)|
    ensures count + Skipped(es) == |es|
  {
    content := "";
    count := 0;
    var n := 0;
    while n < |es|
      invariant 0 <= n <= |es|
      invariant content == Join(Written(es[..n]))
      invariant count == |Written(es[..n])|
    {
      assert es[..n + 1][..n] == es[..n];
      assert es[..n + 1][n] == es[n];
      var data := es[n].originalData;
      if data.Some? {
        var ws := Written(es[..n + 1]);
        assert ws == Written(es[..n]) + [data.value];
        assert ws[..|ws| - 1] == Written(es[..n]) && ws[|ws| - 1] == data.value;
        assert Join(ws) == Join(Written(es[..n])) + data.value + "\n";
        content := content + data.value + "\n";
        count := count + 1;
      } else {
        assert Written(es[..n + 1]) == Written(es[..n]);
      }
      n := n + 1;
    }
    assert es[..n] == es;
  }

  // ---------------------------------------------------------------------------
  // Properties
  // ---------------------------------------------------------------------------

  /** Exactly the events with `original_data` have their value written:
      every written value is some event's data, every event's data is
      written, and written plus skipped is all the events. */
  lemma {:induction false} WrittenAreThePresentData(es: seq<Event>)
    ensures forall w :: w in Written(es) ==> exists i :: 0 <= i < |es| && es[i].originalData == Some(w)
    ensures forall i :: 0 <= i < |es| && es[i].originalData.Some? ==> es[i].originalData.value in Written(es)
    ensures |Written(es)| + Skipped(es) == |es|
    decreases |es|
  {
    if |es| > 0 {
      var init := es[..|es| - 1];
      WrittenAreThePresentData(init);
      assert forall i :: 0 <= i < |init| ==> es[i] == init[i];
    }
  }

  lemma {:induction false} WrittenAppend(a: seq<Event>, b: seq<Event>)
    ensures Written(a + b) == Written(a) + Written(b)
    decreases |b|
  {
    if |b| == 0 {
      assert a + b == a;
    } else {
      var n := |b| - 1;
      assert (a + b)[..|a + b| - 1] == a + b[..n];
      WrittenAppend(a, b[..n]);
    }
  }

  lemma {:induction false} JoinAppend(a: seq<string>, b: seq<string>)
    ensures Join(a + b) == Join(a) + Join(b)
    decreases |b|
  {
    if |b| == 0 {
      assert a + b == a;
    } else {
      var n := |b| - 1;
      assert (a + b)[..|a + b| - 1] == a + b[..n];
      assert (a + b)[|a + b| - 1] == b[n];
      JoinAppend(a, b[..n]);
      assert Join(a + b) == Join(a + b[..n]) + b[n] + "\n";
      assert Join(b) == Join(b[..n]) + b[n] + "\n";
    }
  }

  /** The file holds one newline per written value plus those inside the
      values: a value with a newline of its own spans several lines. */
  lemma {:induction false} JoinNewlines(ws: seq<string>)
    ensures Count(Join(ws), '\n') >= |ws|
    ensures (forall k :: 0 <= k < |ws| ==> '\n' !in ws[k]) ==> Count(Join(ws), '\n') == |ws|
    decreases |ws|
  {
    if |ws| > 0 {
      var n := |ws| - 1;
      JoinNewlines(ws[..n]);
      CountAppend(Join(ws[..n]) + ws[n], "\n", '\n');
      CountAppend(Join(ws[..n]), ws[n], '\n');
      if '\n' !in ws[n] {
        CountAbsent(ws[n], '\n');
      }
    }
  }

  lemma {:induction false} CountAbsent(s: string, c: char)
    requires c !in s
    ensures Count(s, c) == 0
    decreases |s|
  {
    if |s| > 0 {
      assert c !in s[1..];
      CountAbsent(s[1..], c);
    }
  }

  /** Splits newline-terminated text into its lines. */
  function Lines(t: string): seq<string>
    decreases |t|
  {
    if |t| == 0 then []
    else
      var i := LineEnd(t);
      if i == |t| then [t] else [t[..i]] + Lines(t[i + 1..])
  }

  /** Index of the first newline, or `|t|`. */
  function LineEnd(t: string): (i: nat)
    ensures i <= |t|
    ensures forall p :: 0 <= p < i ==> t[p] != '\n'
    ensures i < |t| ==> t[i] == '\n'
    decreases |t|
  {
    if |t| == 0 then 0 else if t[0] == '\n' then 0 else 1 + LineEnd(t[1..])
  }

  /** When no value holds a newline, reading the file back line by line gives
      exactly the written values, in order. */
  lemma {:induction false} LinesJoin(ws: seq<string>)
    requires forall k :: 0 <= k < |ws| ==> '\n' !in ws[k]
    ensures Lines(Join(ws)) == ws
    decreases |ws|
  {
    if |ws| > 0 {
      var rest := ws[1..];
      assert ws == [ws[0]] + rest;
      JoinAppend([ws[0]], rest);
      assert Join([ws[0]]) == ws[0] + "\n" by {
        assert [ws[0]][..0] == [];
      }
      var t := Join(ws);
      assert t == ws[0] + "\n" + Join(rest);
      LineEndAfter(ws[0], Join(rest));
      assert t[..|ws[0]|] == ws[0];
      assert t[|ws[0]| + 1..] == Join(rest);
      LinesJoin(rest);
    }
  }

  lemma {:induction false} LineEndAfter(w: string, rest: string)
    requires '\n' !in w
    ensures LineEnd(w + "\n" + rest) == |w|
    decreases |w|
  {
    if |w| > 0 {
      assert (w + "\n" + rest)[1..] == w[1..] + "\n" + rest;
      LineEndAfter(w[1..], rest);
    }
  }
}

=== FILE: exporter.dfy ===
/** `main` after argument parsing and authentication: query, aggregate, list,
    select, query again with the selected key, export. The query service is a
    parameter: `service(q)` is the list of rows `query_events` collects for
    query `q`. */
module Exporter {
  import opened Wrappers
  import opened Strings
  import opened Events
  import opened Aggregation
  import opened Listing
  import opened Selection
  import opened Cql
  import opened Export

  /** How a run ends: no events at all (exit 0 before any prompt), the
      selection ending without a key, or the export of the selected source. */
  datatype RunResult =
    | NoEventsFound
    | Aborted(outcome: Outcome)
    | Exported(query: string, content: string, count: nat)

  /** The listing shown to the user for a set of events: the aggregation's
      entries strictly sorted, non-empty exactly when events came back, with
      counts summing to the number of events. */
  function ListingOf(events: seq<Event>): (l: seq<Group>)
    ensures multiset(l) == multiset(Aggregate(events))
    ensures Sorted(l)
    ensures |l| > 0 <==> |events| > 0
    ensures TotalSize(l) == |events|
  {
    var gs := Aggregate(events);
    assert |events| > 0 ==> KeyOf(events[0]) in Keys(gs);
    var l := SortedSources(gs);
    TotalSizePermutation(gs, l);
    l
  }

  /** `main` from the first query to the export. A run ends without a prompt
      exactly when the first query returns no events, so `select_log_source`'s
      own check for an empty aggregation never fires from here; an export
      always filters on a key of the listing shown. */
  function Run(timeRange: string, lines: seq<string>, service: string -> seq<Event>): (r: RunResult)
    ensures r == NoEventsFound <==> |service(InitialQuery(timeRange))| == 0
    ensures r != Aborted(NoLogSources)
    ensures r.Exported? ==>
      exists k :: k in Keys(ListingOf(service(InitialQuery(timeRange)))) && r.query == FilteredQuery(k, timeRange)
  {
    var events := service(InitialQuery(timeRange));
    if |events| == 0 then NoEventsFound
    else
      assert KeyOf(events[0]) in Keys(Aggregate(events));
      match SelectLogSource(Aggregate(events), lines)
      case Chosen(k) =>
        var q := FilteredQuery(k, timeRange);
        assert k in Keys(ListingOf(events)) by {
          var m, i := SelectLogSourceChosen(Aggregate(events), lines, k);
          assert Keys(ListingOf(events))[i - 1] == k;
        }
        var selected := service(q);
        Exported(q, Join(Written(selected)), |Written(selected)|)
      case other => Aborted(other)
  }

  /** An export always queries for a key shown in the listing, the one whose
      number the deciding line gave, and writes the data of what that query
      returned. */
  lemma ExportUsesShownKey(timeRange: string, lines: seq<string>, service: string -> seq<Event>)
    returns (m: nat, i: nat)
    requires Run(timeRange, lines, service).Exported?
    ensures m < |lines| && 1 <= i <= |ListingOf(service(InitialQuery(timeRange)))|
    ensures ParseInt(Trim(lines[m])) == Some(i as int)
    ensures AllReprompt(Choices(Keys(ListingOf(service(InitialQuery(timeRange)))), lines)[..m])
    ensures Run(timeRange, lines, service).query ==
      FilteredQuery(ListingOf(service(InitialQuery(timeRange)))[i - 1].key, timeRange)
    ensures Run(timeRange, lines, service).content == Join(Written(service(Run(timeRange, lines, service).query)))
    ensures Run(timeRange, lines, service).count == |Written(service(Run(timeRange, lines, service).query))|
  {
    var events := service(InitialQuery(timeRange));
    var k := SelectLogSource(Aggregate(events), lines).key;
    m, i := SelectLogSourceChosen(Aggregate(events), lines, k);
  }

  /** Conversely, after any number of rejected lines, typing the number of a
      listed entry exports that entry's source. */
  lemma ShownNumberExports(timeRange: string, rejected: seq<string>, i: nat, service: string -> seq<Event>)
    requires |service(InitialQuery(timeRange))| > 0
    requires 1 <= i <= |ListingOf(service(InitialQuery(timeRange)))|
    requires AllReprompt(Choices(Keys(ListingOf(service(InitialQuery(timeRange)))), rejected))
    ensures Run(timeRange, rejected + [ShowNat(i)], service) ==
      var q := FilteredQuery(ListingOf(service(InitialQuery(timeRange)))[i - 1].key, timeRange);
      Exported(q, Join(Written(service(q))), |Written(service(q))|)
  {
    var gs := Aggregate(service(InitialQuery(timeRange)));
    var keys := Keys(SortedSources(gs));
    PromptSelectsShown(keys, rejected, i);
    SelectLogSourcePrompts(gs, rejected + [ShowNat(i)]);
  }

  /** The exported source is one the initial events actually contain: `j` is
      an event carrying the key the query filters on. */
  lemma ExportedKeyOccurs(timeRange: string, lines: seq<string>, service: string -> seq<Event>)
    returns (k: SourceKey, j: nat)
    requires Run(timeRange, lines, service).Exported?
    ensures Run(timeRange, lines, service).query == FilteredQuery(k, timeRange)
    ensures j < |service(InitialQuery(timeRange))| && KeyOf(service(InitialQuery(timeRange))[j]) == k
  {
    var events := service(InitialQuery(timeRange));
    var m, i := ExportUsesShownKey(timeRange, lines, service);
    k := ListingOf(events)[i - 1].key;
    j := ListedKeyOccurs(events, i - 1);
  }
}

=== FILE: listing.dfy ===
/** The numbered listing shown to the user and used for selection: the
    aggregation's entries sorted by the key `(-len(events), sensor_id,
    sensor_type)`, i.e. largest group first, then sensor id and sensor type in
    Python string order. Both `display_aggregated_sources` and
    `select_log_source` sort with this same key; here it is defined once. */
module Listing {
  import opened Seqs
  import opened Strings
  import opened Events
  import opened Aggregation

  /** `(-len(a.events), a.id, a.type) < (-len(b.events), b.id, b.type)` as
      Python compares tuples. */
  function Before(a: Group, b: Group): (r: bool)
    ensures |a.events| > |b.events| ==> r
    ensures r ==> |a.events| >= |b.events|
    ensures |a.events| == |b.events| && a.key == b.key ==> !r
  {
    assert a.key == b.key ==> a.key.sensorId <= b.key.sensorId && a.key.sensorType <= b.key.sensorType;
    || |a.events| > |b.events|
    || (|a.events| == |b.events| && StrLess(a.key.sensorId, b.key.sensorId))
    || (|a.events| == |b.events| && a.key.sensorId == b.key.sensorId && StrLess(a.key.sensorType, b.key.sensorType))
  }

  /** Every entry comes strictly before every later one. */
  predicate Sorted(s: seq<Group>) {
    forall i, j :: 0 <= i < j < |s| ==> Before(s[i], s[j])
  }

  // ---------------------------------------------------------------------------
  // The sort key is a strict total order on groups with distinct keys
  // ---------------------------------------------------------------------------

  lemma BeforeIrreflexive(a: Group)
    ensures !Before(a, a)
  {
    StrLessIrreflexive(a.key.sensorId);
    StrLessIrreflexive(a.key.sensorType);
  }

  lemma BeforeAsymmetric(a: Group, b: Group)
    ensures Before(a, b) ==> !Before(b, a)
  {
    StrLessAsymmetric(a.key.sensorId, b.key.sensorId);
    StrLessAsymmetric(a.key.sensorType, b.key.sensorType);
    StrLessIrreflexive(a.key.sensorId);
  }

  lemma BeforeTransitive(a: Group, b: Group, c: Group)
    requires Before(a, b) && Before(b, c)
    ensures Before(a, c)
  {
    if |a.events| == |b.events| == |c.events| {
      if StrLess(a.key.sensorId, b.key.sensorId) && StrLess(b.key.sensorId, c.key.sensorId) {
        StrLessTransitive(a.key.sensorId, b.key.sensorId, c.key.sensorId);
      }
      if StrLess(a.key.sensorType, b.key.sensorType) && StrLess(b.key.sensorType, c.key.sensorType) {
        StrLessTransitive(a.key.sensorType, b.key.sensorType, c.key.sensorType);
      }
    }
  }

  /** Entries with different keys are never tied, so the order between them
      does not depend on where they were in the dictionary. */
  lemma BeforeConnected(a: Group, b: Group)
    requires a.key != b.key
    ensures Before(a, b) || Before(b, a)
  {
    if a.key.sensorId != b.key.sensorId {
      StrLessConnected(a.key.sensorId, b.key.sensorId);
    } else {
      StrLessConnected(a.key.sensorType, b.key.sensorType);
    }
  }

  // ---------------------------------------------------------------------------
  // sorted(aggregated.items(), key=...)
  // ---------------------------------------------------------------------------

  /** Places `x` before the first entry it sorts before. Inserting into a
      sorted sequence with none of `x`'s key keeps it sorted. */
  function Insert(x: Group, s: seq<Group>): (r: seq<Group>)
    ensures multiset(r) == multiset(s) + multiset{x}
    ensures Sorted(s) && KeyAbsent(s, x.key) ==> Sorted(r)
    decreases |s|
  {
    if |s| == 0 then [x]
    else if Before(x, s[0]) then
      assert Sorted(s) ==> Sorted([x] + s) by {
        if Sorted(s) { InsertFront(x, s); }
      }
      [x] + s
    else
      HeadAndTail(s);
      var rest := Insert(x, s[1..]);
      assert Sorted(s) && KeyAbsent(s, x.key) ==> Sorted([s[0]] + rest) by {
        if Sorted(s) && KeyAbsent(s, x.key) {
          SortedTail(s);
          assert forall j :: 0 <= j < |s| - 1 ==> s[1..][j] == s[j + 1];
          InsertBehind(x, s, rest);
        }
      }
      [s[0]] + rest
  }

  /** No entry of `s` has key `k`. */
  predicate KeyAbsent(s: seq<Group>, k: SourceKey) {
    forall j :: 0 <= j < |s| ==> s[j].key != k
  }

  lemma SortedTail(s: seq<Group>)
    requires Sorted(s) && |s| > 0
    ensures Sorted(s[1..])
  {
    forall i, j | 0 <= i < j < |s| - 1 ensures Before(s[1..][i], s[1..][j]) {
      assert s[1..][i] == s[i + 1] && s[1..][j] == s[j + 1];
    }
  }

  lemma InsertFront(x: Group, s: seq<Group>)
    requires Sorted(s) && |s| > 0 && Before(x, s[0])
    ensures Sorted([x] + s)
  {
    forall j | 1 <= j < |s| {
      BeforeTransitive(x, s[0], s[j]);
    }
  }

  lemma InsertBehind(x: Group, s: seq<Group>, tail: seq<Group>)
    requires Sorted(s) && |s| > 0 && !Before(x, s[0]) && s[0].key != x.key
    requires Sorted(tail) && multiset(tail) == multiset(s[1..]) + multiset{x}
    ensures Sorted([s[0]] + tail)
  {
    BeforeConnected(x, s[0]);
    forall j | 0 <= j < |tail| ensures Before(s[0], tail[j]) {
      assert tail[j] in multiset(s[1..]) + multiset{x};
      if tail[j] != x {
        var k := IndexOf(tail[j], s[1..]);
        assert s[k + 1] == tail[j];
      }
    }
  }

  /** `sorted(items, key=lambda x: (-len(x[1]), x[0][0], x[0][1]))` by
      insertion: a permutation of the entries, strictly sorted when their keys
      are distinct. */
  function Sort(s: seq<Group>): (r: seq<Group>)
    ensures multiset(r) == multiset(s)
    ensures DistinctKeys(s) ==> Sorted(r)
    decreases |s|
  {
    if |s| == 0 then []
    else
      HeadAndTail(s);
      var rest := Sort(s[1..]);
      assert DistinctKeys(s) ==> DistinctKeys(s[1..]) && KeyAbsent(rest, s[0].key) by {
        if DistinctKeys(s) {
          DistinctKeysTail(s);
          HeadKeyAbsent(s, rest);
        }
      }
      Insert(s[0], rest)
  }

  lemma DistinctKeysTail(s: seq<Group>)
    requires DistinctKeys(s) && |s| > 0
    ensures DistinctKeys(s[1..])
  {
    forall i, j | 0 <= i < j < |s| - 1 ensures s[1..][i].key != s[1..][j].key {
      assert s[1..][i] == s[i + 1] && s[1..][j] == s[j + 1];
    }
  }

  lemma HeadKeyAbsent(s: seq<Group>, rest: seq<Group>)
    requires DistinctKeys(s) && |s| > 0
    requires multiset(rest) == multiset(s[1..])
    ensures KeyAbsent(rest, s[0].key)
  {
    forall j | 0 <= j < |rest| ensures rest[j].key != s[0].key {
      assert rest[j] in multiset(rest);
      var k := IndexOf(rest[j], s[1..]);
      assert s[k + 1].key != s[0].key;
    }
  }

  /** The sorted listing is determined by its contents alone: two sorted
      arrangements of the same entries are identical. */
  lemma {:induction false} SortedUnique(s: seq<Group>, t: seq<Group>)
    requires Sorted(s) && Sorted(t)
    requires multiset(s) == multiset(t)
    ensures s == t
    decreases |s|
  {
    assert |multiset(s)| == |s| && |multiset(t)| == |t|;
    if |s| > 0 {
      SortedSameHead(s, t);
      TailsSameMultiset(s, t);
      SortedUnique(s[1..], t[1..]);
      assert s == [s[0]] + s[1..] && t == [t[0]] + t[1..];
    }
  }

  /** Two sorted arrangements of the same entries start with the same one. */
  lemma SortedSameHead(s: seq<Group>, t: seq<Group>)
    requires Sorted(s) && Sorted(t)
    requires multiset(s) == multiset(t) && |s| > 0 && |t| > 0
    ensures s[0] == t[0]
  {
    assert s[0] in multiset(t);
    var j :| 0 <= j < |t| && t[j] == s[0];
    assert t[0] in multiset(s);
    var i :| 0 <= i < |s| && s[i] == t[0];
    if i != 0 && j != 0 {
      BeforeAsymmetric(s[0], t[0]);
    }
  }

  lemma TailsSameMultiset(s: seq<Group>, t: seq<Group>)
    requires multiset(s) == multiset(t) && |s| > 0 && |t| > 0 && s[0] == t[0]
    ensures multiset(s[1..]) == multiset(t[1..])
  {
    assert s == [s[0]] + s[1..] && t == [t[0]] + t[1..];
    assert multiset(s[1..]) == multiset(s) - multiset{s[0]};
    assert multiset(t[1..]) == multiset(t) - multiset{t[0]};
  }

  /** The listing of the aggregation: its entries in sort-key order. */
  function SortedSources(gs: seq<Group>): (r: seq<Group>)
    ensures multiset(r) == multiset(gs)
    ensures |r| == |gs|
    ensures DistinctKeys(gs) ==> Sorted(r)
  {
    var r := Sort(gs);
    assert |multiset(r)| == |r| && |multiset(gs)| == |gs|;
    r
  }

  /** The order of the dictionary's entries does not affect the listing, so
      the numbering is the same on every run for the same events. */
  lemma ListingIndependentOfOrder(gs: seq<Group>, hs: seq<Group>)
    requires DistinctKeys(gs) && DistinctKeys(hs)
    requires multiset(gs) == multiset(hs)
    ensures SortedSources(gs) == SortedSources(hs)
  {
    SortedUnique(SortedSources(gs), SortedSources(hs));
  }

  /** Every listed source is the key of some event. */
  lemma ListedKeyOccurs(es: seq<Event>, i: nat) returns (j: nat)
    requires i < |Aggregate(es)|
    ensures DistinctKeys(Aggregate(es))
    ensures j < |es| && KeyOf(es[j]) == SortedSources(Aggregate(es))[i].key
  {
    var l := SortedSources(Aggregate(es));
    assert l[i].events == Filter(es, l[i].key) && l[i].events != [] by {
      ListingOfEvents(es);
    }
    var x := l[i].events[0];
    assert x in es && KeyOf(x) == l[i].key;
    j :| 0 <= j < |es| && es[j] == x;
  }

  /** The listing of `es`' aggregation holds exactly one entry per key that
      occurs in `es`, each with all events of that key in input order; no two
      entries tie, and the counts add up to the number of events. */
  lemma {:induction false} ListingOfEvents(es: seq<Event>)
    ensures DistinctKeys(Aggregate(es))
    ensures Sorted(SortedSources(Aggregate(es)))
    ensures forall j :: 0 <= j < |SortedSources(Aggregate(es))| ==>
      SortedSources(Aggregate(es))[j].events == Filter(es, SortedSources(Aggregate(es))[j].key) &&
      SortedSources(Aggregate(es))[j].events != []
    ensures forall i :: 0 <= i < |es| ==> KeyOf(es[i]) in Keys(SortedSources(Aggregate(es)))
    ensures TotalSize(SortedSources(Aggregate(es))) == |es|
  {
    var gs := Aggregate(es);
    var l := SortedSources(gs);
    ListingKeepsGroups(gs, es, l);
    TotalSizePermutation(gs, l);
  }

  /** A permutation of a grouping is a grouping (up to distinct keys). */
  lemma ListingKeepsGroups(gs: seq<Group>, es: seq<Event>, l: seq<Group>)
    requires IsGroupingOf(gs, es)
    requires multiset(l) == multiset(gs)
    ensures forall j :: 0 <= j < |l| ==> l[j].events == Filter(es, l[j].key) && l[j].events != []
    ensures forall i :: 0 <= i < |es| ==> KeyOf(es[i]) in Keys(l)
  {
    forall j | 0 <= j < |l| ensures l[j] in gs {
      assert l[j] in multiset(gs);
    }
    forall i | 0 <= i < |es| ensures KeyOf(es[i]) in Keys(l) {
      var k := FindKey(gs, KeyOf(es[i]));
      assert gs[k] in multiset(l);
      var j :| 0 <= j < |l| && l[j] == gs[k];
      assert Keys(l)[j] == KeyOf(es[i]);
    }
  }

  /** Reordering the groups does not change the sum of their sizes. */
  lemma {:induction false} TotalSizePermutation(gs: seq<Group>, hs: seq<Group>)
    requires multiset(gs) == multiset(hs)
    ensures TotalSize(gs) == TotalSize(hs)
    decreases |gs|
  {
    if |gs| == 0 {
      assert |multiset(hs)| == 0;
    } else {
      var last := gs[|gs| - 1];
      assert gs == gs[..|gs| - 1] + [last];
      assert last in multiset(hs);
      var k :| 0 <= k < |hs| && hs[k] == last;
      var rest := hs[..k] + hs[k + 1..];
      assert hs == hs[..k] + [last] + hs[k + 1..];
      assert multiset(gs[..|gs| - 1]) == multiset(gs) - multiset{last};
      assert multiset(rest) == multiset(hs) - multiset{last};
      TotalSizePermutation(gs[..|gs| - 1], rest);
      TotalSizeRemove(hs, k);
    }
  }

  lemma {:induction false} TotalSizeRemove(hs: seq<Group>, k: nat)
    requires k < |hs|
    ensures TotalSize(hs) == TotalSize(hs[..k] + hs[k + 1..]) + |hs[k].events|
    decreases |hs|
  {
    var n := |hs| - 1;
    if k == n {
      assert hs[..k] + hs[k + 1..] == hs[..n];
    } else {
      var rest := hs[..k] + hs[k + 1..];
      assert rest[..|rest| - 1] == hs[..n][..k] + hs[..n][k + 1..];
      assert rest[|rest| - 1] == hs[n];
      TotalSizeRemove(hs[..n], k);
    }
  }

  // ---------------------------------------------------------------------------
  // display_aggregated_sources
  // ---------------------------------------------------------------------------

  /** One printed line: its 1-based number, the key and the group size. */
  datatype Row = Row(number: nat, key: SourceKey, count: nat)

  /** The rows `display_aggregated_sources` prints, numbered from 1. */
  function DisplayRows(gs: seq<Group>): (rows: seq<Row>)
    ensures |rows| == |gs|
    ensures forall i :: 0 <= i < |rows| ==>
      rows[i].number == i + 1 &&
      rows[i].key == SortedSources(gs)[i].key &&
      rows[i].count == |SortedSources(gs)[i].events|
  {
    NumberFrom(SortedSources(gs), 1)
  }

  /** `enumerate(l, first)`: the rows for `l`, numbered from `first`. */
  function NumberFrom(l: seq<Group>, first: nat): (rows: seq<Row>)
    ensures |rows| == |l|
    ensures forall i :: 0 <= i < |l| ==>
      rows[i].number == first + i && rows[i].key == l[i].key && rows[i].count == |l[i].events|
    decreases |l|
  {
    if |l| == 0 then []
    else
      var rest := NumberFrom(l[1..], first + 1);
      assert forall i :: 1 <= i < |l| ==> l[i] == l[1..][i - 1];
      [Row(first, l[0].key, |l[0].events|)] + rest
  }
}

=== FILE: pages.dfy ===
/** The parts of `query_events` that look at the service's results: the
    next-page token and the rows a result list contributes. The service calls
    themselves are not modelled. */
module Pages {
  import opened Wrappers
  import opened Events

  /** One result of a query or page call: its `next` token and the rows of
      its `result`, each `None` when missing or `None`. */
  datatype PageResult = PageResult(next: Option<string>, rows: Option<seq<Event>>)

  /** `hasattr(result, 'next') and result.next`: present and non-empty. */
  predicate HasNext(r: PageResult) {
    r.next.Some? && r.next.value != ""
  }

  /** `get_next_page`: the token of the first result that has one. */
  function NextPage(results: seq<PageResult>): (r: Option<string>)
    ensures r.Some? ==> r.value != ""
    ensures r.None? <==> forall i :: 0 <= i < |results| ==> !HasNext(results[i])
    ensures r.Some? ==> exists i :: (0 <= i < |results| && HasNext(results[i]) && results[i].next == r &&
      forall p :: 0 <= p < i ==> !HasNext(results[p]))
    decreases |results|
  {
    if |results| == 0 then None
    else if HasNext(results[0]) then results[0].next
    else
      var r := NextPage(results[1..]);
      assert forall i :: 1 <= i < |results| ==> results[i] == results[1..][i - 1];
      if r.Some? then
        var i :| 0 <= i < |results| - 1 && HasNext(results[1..][i]) && results[1..][i].next == r &&
          forall p :: 0 <= p < i ==> !HasNext(results[1..][p]);
        assert HasNext(results[i + 1]) && results[i + 1].next == r;
        r
      else r
  }

  /** The rows a result list adds to `all_rows`, in order. Every collected row
      is a row of one of the results, every row of a result is collected, and
      a list without rows adds nothing. */
  function CollectRows(results: seq<PageResult>): (rows: seq<Event>)
    ensures forall e :: e in rows ==>
      exists i :: 0 <= i < |results| && results[i].rows.Some? && e in results[i].rows.value
    ensures forall i, e :: 0 <= i < |results| && results[i].rows.Some? && e in results[i].rows.value ==> e in rows
    ensures (forall i :: 0 <= i < |results| ==> results[i].rows.GetOr([]) == []) ==> rows == []
    decreases |results|
  {
    if |results| == 0 then []
    else
      var n := |results| - 1;
      var init := CollectRows(results[..n]);
      assert forall i :: 0 <= i < n ==> results[..n][i] == results[i];
      init + results[n].rows.GetOr([])
  }

  /** A single result contributes exactly its own rows; with
      `CollectRowsAppend` this fixes the collected rows of every list. */
  lemma CollectRowsOne(r: PageResult)
    ensures CollectRows([r]) == r.rows.GetOr([])
  {
    assert [r][..0] == [];
  }

  /** Collecting over two lists one after the other is collecting over their
      concatenation: rows keep the order of the results they came from. */
  lemma {:induction false} CollectRowsAppend(a: seq<PageResult>, b: seq<PageResult>)
    ensures CollectRows(a + b) == CollectRows(a) + CollectRows(b)
    decreases |b|
  {
    if |b| == 0 {
      assert a + b == a;
    } else {
      var n := |b| - 1;
      assert (a + b)[..|a + b| - 1] == a + b[..n];
      assert (a + b)[|a + b| - 1] == b[n];
      CollectRowsAppend(a, b[..n]);
      assert CollectRows(a + b) == CollectRows(a + b[..n]) + b[n].rows.GetOr([]);
      assert CollectRows(b) == CollectRows(b[..n]) + b[n].rows.GetOr([]);
    }
  }
}

=== FILE: selection.dfy ===
/** `select_log_source`: each line the user types is stripped and resolves to
    quitting, a listed key, or a request to try again; the prompt repeats until
    a line decides. The sequence of lines stands for what `input()` returns. */
module Selection {
  import opened Wrappers
  import opened Strings
  import opened Events
  import opened Aggregation
  import opened Listing

  // ---------------------------------------------------------------------------
  // int(choice)
  // ---------------------------------------------------------------------------

  predicate IsDigit(c: char) {
    '0' <= c <= '9'
  }

  function DigitValue(c: char): (d: nat)
    requires IsDigit(c)
    ensures d < 10
  {
    (c as int) - ('0' as int)
  }

  function DigitChar(d: nat): (c: char)
    requires d < 10
    ensures IsDigit(c) && DigitValue(c) == d
  {
    ((d + '0' as int) as char)
  }

  /** The body of a decimal integer that `int()` accepts: ASCII digits, where
      single underscores may separate two digits. */
  predicate ValidDigits(b: string) {
    && |b| > 0 && IsDigit(b[0]) && IsDigit(b[|b| - 1])
    && (forall i :: 0 <= i < |b| ==> IsDigit(b[i]) || b[i] == '_')
    && (forall i :: 0 <= i < |b| - 1 ==> b[i] == '_' ==> b[i + 1] != '_')
  }

  /** The value of the digits of `b`, underscores ignored. */
  function DigitsValue(b: string): nat
    requires forall i :: 0 <= i < |b| ==> IsDigit(b[i]) || b[i] == '_'
    decreases |b|
  {
    if |b| == 0 then 0
    else
      var last := b[|b| - 1];
      if last == '_' then DigitsValue(b[..|b| - 1])
      else DigitsValue(b[..|b| - 1]) * 10 + DigitValue(last)
  }

  /** `int(s)` on an already stripped string: an optional sign and a digit
      body; anything else raises `ValueError`, modelled as `None`. */
  function ParseInt(s: string): (r: Option<int>)
    ensures r.Some? ==> |s| > 0 && IsDigit(s[|s| - 1])
    ensures r.Some? ==> forall i :: 0 <= i < |s| ==> IsDigit(s[i]) || s[i] in "_+-"
  {
    if |s| > 0 && (s[0] == '+' || s[0] == '-') then
      var b := s[1..];
      var v: int := if ValidDigits(b) then DigitsValue(b) else 0;
      if ValidDigits(b) then Some(if s[0] == '-' then -v else v) else None
    else if ValidDigits(s) then Some(DigitsValue(s))
    else None
  }

  /** `str(n)` for a natural number: its decimal digits. */
  function ShowNat(n: nat): (s: string)
    ensures |s| > 0
    ensures forall i :: 0 <= i < |s| ==> IsDigit(s[i])
    decreases n
  {
    if n < 10 then [DigitChar(n)] else ShowNat(n / 10) + [DigitChar(n % 10)]
  }

  /** `str(n)` for any integer. */
  function ShowInt(n: int): (s: string)
    ensures |s| > 0
  {
    if n < 0 then "-" + ShowNat(-n) else ShowNat(n)
  }

  lemma {:induction false} DigitsValueShowNat(n: nat)
    ensures DigitsValue(ShowNat(n)) == n
    decreases n
  {
    if n >= 10 {
      var s := ShowNat(n);
      assert s[..|s| - 1] == ShowNat(n / 10);
      DigitsValueShowNat(n / 10);
    }
  }

  /** `int(str(n)) == n`. */
  lemma ParseShowInt(n: int)
    ensures ParseInt(ShowInt(n)) == Some(n)
  {
    var m := if n < 0 then -n else n;
    var b := ShowNat(m);
    DigitsValueShowNat(m);
    assert ValidDigits(b) by {
      assert IsDigit(b[0]) && IsDigit(b[|b| - 1]);
    }
    if n < 0 {
      var s := ShowInt(n);
      assert s == "-" + b;
      assert s[0] == '-' && s[1..] == b;
    } else {
      assert ShowInt(n) == b;
      assert b[0] != '+' && b[0] != '-';
    }
  }

  // ---------------------------------------------------------------------------
  // One line of input
  // ---------------------------------------------------------------------------

  datatype Reason = OutOfRange | NotANumber

  /** What one line of input leads to. */
  datatype Choice = Quit | Reprompt(reason: Reason) | Select(key: SourceKey)

  predicate IsQuit(s: string) {
    s == "q" || s == "Q"
  }

  /** The body of the `while True` loop for one line, given the keys of the
      listing in display order: `q`/`Q` quits, a number `n` in `1..len`
      selects the `n`-th key, any other number or text asks again. */
  function Resolve(keys: seq<SourceKey>, line: string): (r: Choice)
    ensures r == Quit <==> IsQuit(Trim(line))
    ensures r.Select? ==> r.key in keys && ParseInt(Trim(line)).Some?
    ensures |keys| == 0 ==> !r.Select?
  {
    var choice := Trim(line);
    if IsQuit(choice) then Quit
    else match ParseInt(choice)
      case None => Reprompt(NotANumber)
      case Some(n) => if 1 <= n <= |keys| then Select(keys[n - 1]) else Reprompt(OutOfRange)
  }

  /** The three outcomes of one line, each in both directions: the stripped
      line is `q` or `Q`; it is a number `n` with `1 <= n <= len`, and then the
      `n`-th key is chosen; or it is another number or not a number at all. */
  lemma ResolveCases(keys: seq<SourceKey>, line: string)
    ensures Resolve(keys, line) == Quit <==> IsQuit(Trim(line))
    ensures Resolve(keys, line).Select? <==>
      !IsQuit(Trim(line)) && ParseInt(Trim(line)).Some? && 1 <= ParseInt(Trim(line)).value <= |keys|
    ensures Resolve(keys, line).Select? ==> Resolve(keys, line).key == keys[ParseInt(Trim(line)).value - 1]
    ensures Resolve(keys, line) == Reprompt(NotANumber) <==> !IsQuit(Trim(line)) && ParseInt(Trim(line)).None?
    ensures Resolve(keys, line) == Reprompt(OutOfRange) <==>
      !IsQuit(Trim(line)) && ParseInt(Trim(line)).Some? &&
      (ParseInt(Trim(line)).value < 1 || ParseInt(Trim(line)).value > |keys|)
  {
  }

  /** Typing the number `i` (with any surrounding whitespace) selects the
      `i`-th key of the listing. */
  lemma ResolveNumber(keys: seq<SourceKey>, i: nat, pre: string, post: string)
    requires 1 <= i <= |keys|
    requires forall j :: 0 <= j < |pre| ==> IsSpace(pre[j])
    requires forall j :: 0 <= j < |post| ==> IsSpace(post[j])
    ensures Resolve(keys, pre + ShowNat(i) + post) == Select(keys[i - 1])
  {
    PaddedNumber(i, pre, post);
  }

  /** A number written out and padded with whitespace strips and parses back
      to itself, and is not a quit command. */
  lemma PaddedNumber(i: nat, pre: string, post: string)
    requires forall j :: 0 <= j < |pre| ==> IsSpace(pre[j])
    requires forall j :: 0 <= j < |post| ==> IsSpace(post[j])
    ensures Trim(pre + ShowNat(i) + post) == ShowNat(i)
    ensures ParseInt(ShowNat(i)) == Some(i as int)
    ensures !IsQuit(ShowNat(i))
  {
    var s := ShowNat(i);
    assert IsDigit(s[0]) && IsDigit(s[|s| - 1]);
    TrimPadded(pre, s, post);
    ParseShowInt(i);
  }

  // ---------------------------------------------------------------------------
  // The prompt loop
  // ---------------------------------------------------------------------------

  /** How `select_log_source` ends. `EndOfInput` stands for `input()` finding no
      further line (an `EOFError` the function does not catch). */
  datatype Outcome = NoLogSources | Quitted | Chosen(key: SourceKey) | EndOfInput

  /** What each line typed at the prompt resolves to, in order: the `p`-th
      choice is what the `p`-th line resolves to on its own. */
  function Choices(keys: seq<SourceKey>, lines: seq<string>): (cs: seq<Choice>)
    ensures |cs| == |lines|
    ensures forall p :: 0 <= p < |lines| ==> cs[p] == Resolve(keys, lines[p])
    decreases |lines|
  {
    if |lines| == 0 then []
    else
      var rest := Choices(keys, lines[1..]);
      assert forall p :: 1 <= p < |lines| ==> lines[p] == lines[1..][p - 1];
      [Resolve(keys, lines[0])] + rest
  }

  /** `while True`: the first choice that is not a request to try again
      decides; running out of lines first is `EndOfInput`. */
  function Decide(cs: seq<Choice>): (r: Outcome)
    ensures r != NoLogSources
    ensures r == Quitted ==> Quit in cs
    ensures r.Chosen? ==> Select(r.key) in cs
    decreases |cs|
  {
    if |cs| == 0 then EndOfInput
    else match cs[0]
      case Quit => Quitted
      case Select(k) => Chosen(k)
      case Reprompt(_) =>
        var r := Decide(cs[1..]);
        assert forall c :: c in cs[1..] ==> c in cs;
        r
  }

  /** Prompting for the listing's keys over the lines typed. */
  function Prompt(keys: seq<SourceKey>, lines: seq<string>): Outcome {
    Decide(Choices(keys, lines))
  }

  /** `select_log_source(aggregated)` fed with `lines`: an empty aggregation
      ends before any prompt, otherwise the listing is prompted for. */
  function SelectLogSource(gs: seq<Group>, lines: seq<string>): (r: Outcome)
    ensures r == NoLogSources <==> |gs| == 0
  {
    var l := SortedSources(gs);
    if |l| == 0 then NoLogSources else Prompt(Keys(l), lines)
  }

  /** Every choice asks to try again. */
  predicate AllReprompt(cs: seq<Choice>) {
    forall p :: 0 <= p < |cs| ==> cs[p].Reprompt?
  }

  /** The loop ends with `o` exactly when some choice gives `o` and every
      choice before it asked to try again; it only runs out of input when
      every choice did. */
  lemma {:induction false} DecideFirst(cs: seq<Choice>, o: Outcome)
    requires o == Quitted || o.Chosen?
    ensures Decide(cs) == o <==>
      exists m :: 0 <= m < |cs| && AllReprompt(cs[..m]) &&
        (if o == Quitted then cs[m] == Quit else cs[m] == Select(o.key))
    decreases |cs|
  {
    if |cs| > 0 {
      var tail := cs[1..];
      DecideFirst(tail, o);
      if Decide(cs) == o {
        if cs[0].Reprompt? {
          var m :| 0 <= m < |tail| && AllReprompt(tail[..m]) &&
            (if o == Quitted then tail[m] == Quit else tail[m] == Select(o.key));
          assert cs[..m + 1] == [cs[0]] + tail[..m];
          assert cs[m + 1] == tail[m];
        } else {
          assert cs[..0] == [];
        }
      }
      if exists m :: 0 <= m < |cs| && AllReprompt(cs[..m]) &&
          (if o == Quitted then cs[m] == Quit else cs[m] == Select(o.key)) {
        var m :| 0 <= m < |cs| && AllReprompt(cs[..m]) &&
          (if o == Quitted then cs[m] == Quit else cs[m] == Select(o.key));
        if m > 0 {
          assert cs[..m][0] == cs[0];
          assert tail[..m - 1] == cs[..m][1..];
          assert tail[m - 1] == cs[m];
        }
      }
    }
  }

  /** The loop runs out of input exactly when every line asked to try again. */
  lemma {:induction false} DecideEndOfInput(cs: seq<Choice>)
    ensures Decide(cs) == EndOfInput <==> AllReprompt(cs)
    decreases |cs|
  {
    if |cs| > 0 {
      DecideEndOfInput(cs[1..]);
      if cs[0].Reprompt? {
        assert forall p :: 1 <= p < |cs| ==> cs[p] == cs[1..][p - 1];
      }
    }
  }

  /** A selecting line names a listed number. */
  lemma ResolveSelected(keys: seq<SourceKey>, line: string, k: SourceKey) returns (i: nat)
    requires Resolve(keys, line) == Select(k)
    ensures 1 <= i <= |keys| && ParseInt(Trim(line)) == Some(i as int) && keys[i - 1] == k
  {
    var choice := Trim(line);
    i := ParseInt(choice).value;
  }

  /** `select_log_source` returns `k` only when some line `m` gave a listed
      number `i` whose entry has key `k`, every earlier line having been
      rejected. */
  lemma SelectLogSourceChosen(gs: seq<Group>, lines: seq<string>, k: SourceKey) returns (m: nat, i: nat)
    requires SelectLogSource(gs, lines) == Chosen(k)
    ensures m < |lines| && 1 <= i <= |SortedSources(gs)|
    ensures ParseInt(Trim(lines[m])) == Some(i as int) && SortedSources(gs)[i - 1].key == k
    ensures AllReprompt(Choices(Keys(SortedSources(gs)), lines)[..m])
  {
    var keys := Keys(SortedSources(gs));
    var cs := Choices(keys, lines);
    DecideFirst(cs, Chosen(k));
    m :| 0 <= m < |cs| && AllReprompt(cs[..m]) && cs[m] == Select(k);
    i := ResolveSelected(keys, lines[m], k);
  }

  /** The number printed next to an entry is the number that selects it:
      typing the `i`-th row's number after any number of rejected lines
      picks that row's key. */
  lemma DisplayedNumberSelects(gs: seq<Group>, i: nat, rejected: seq<string>)
    requires i < |gs|
    requires AllReprompt(Choices(Keys(SortedSources(gs)), rejected))
    ensures SelectLogSource(gs, rejected + [ShowNat(i + 1)]) == Chosen(Keys(SortedSources(gs))[i])
  {
    var l := SortedSources(gs);
    var keys := Keys(l);
    assert |keys| == |l| == |gs|;
    PromptSelectsShown(keys, rejected, i + 1);
    SelectLogSourcePrompts(gs, rejected + [ShowNat(i + 1)]);
  }

  /** With at least one source, selection is the prompt over the listing. */
  lemma SelectLogSourcePrompts(gs: seq<Group>, lines: seq<string>)
    requires |gs| > 0
    ensures SelectLogSource(gs, lines) == Prompt(Keys(SortedSources(gs)), lines)
  {
  }

  /** After rejected lines, a listed number typed as displayed selects the
      entry it numbers. */
  lemma PromptSelectsShown(keys: seq<SourceKey>, rejected: seq<string>, i: nat)
    requires 1 <= i <= |keys|
    requires AllReprompt(Choices(keys, rejected))
    ensures Prompt(keys, rejected + [ShowNat(i)]) == Chosen(keys[i - 1])
  {
    var cs := Choices(keys, rejected + [ShowNat(i)]);
    ChoicesSnoc(keys, rejected, ShowNat(i));
    ResolveShown(keys, i);
    assert cs[..|rejected|] == Choices(keys, rejected);
    DecideFirst(cs, Chosen(keys[i - 1]));
  }

  /** The number of a listed key, exactly as displayed, selects that key. */
  lemma ResolveShown(keys: seq<SourceKey>, i: nat)
    requires 1 <= i <= |keys|
    ensures Resolve(keys, ShowNat(i)) == Select(keys[i - 1])
  {
    ResolveNumber(keys, i, "", "");
    assert "" + ShowNat(i) + "" == ShowNat(i);
  }

  /** One more line typed adds its own choice at the end. */
  lemma ChoicesSnoc(keys: seq<SourceKey>, a: seq<string>, line: string)
    ensures Choices(keys, a + [line]) == Choices(keys, a) + [Resolve(keys, line)]
  {
    var l := a + [line];
    assert forall p :: 0 <= p < |a| ==> l[p] == a[p];
    assert Choices(keys, l)[..|a|] == Choices(keys, a);
  }
}

=== FILE: seqs.dfy ===
/** Generic facts about sequences that the model's proofs use. */
module Seqs {

  /** A non-empty sequence is its prefix followed by its last element. */
  lemma SplitLast<T>(s: seq<T>)
    requires |s| > 0
    ensures s[..|s| - 1] + [s[|s| - 1]] == s
  {
  }

  /** A position of an element of `s`. */
  lemma IndexOf<T>(x: T, s: seq<T>) returns (k: nat)
    requires x in multiset(s)
    ensures k < |s| && s[k] == x
  {
    assert x in s;
    k :| 0 <= k < |s| && s[k] == x;
  }

  /** The elements of a non-empty sequence are its first one and those of the rest. */
  lemma HeadAndTail<T>(s: seq<T>)
    requires |s| > 0
    ensures multiset(s) == multiset(s[1..]) + multiset{s[0]}
  {
    assert s == [s[0]] + s[1..];
  }
}

=== FILE: strings.dfy ===
/** String facts the exporter relies on: Python's ordering of `str` values
    (lexicographic by code point), `str.strip()`, and character counting. */
module Strings {

  // ---------------------------------------------------------------------------
  // Lexicographic order by code point
  // ---------------------------------------------------------------------------

  /** Python's `a < b` on `str`: the first differing code point decides, and a
      proper prefix comes first. (Dafny's own `<` on sequences means "proper
      prefix" only, so it is not used.) */
  function StrLess(a: string, b: string): (r: bool)
    ensures a < b ==> r
    ensures b <= a ==> !r
    decreases |a|
  {
    if |a| == 0 then |b| > 0
    else if |b| == 0 then false
    else if a[0] != b[0] then a[0] < b[0]
    else StrLess(a[1..], b[1..])
  }

  /** The order is characterised by a witness index: a common prefix of
      length `i`, then either `a` ends or the code point at `i` is smaller. */
  lemma {:induction false} StrLessWitness(a: string, b: string)
    ensures StrLess(a, b) <==>
      exists i :: 0 <= i <= |a| && i <= |b| && a[..i] == b[..i] &&
        ((i == |a| && i < |b|) || (i < |a| && i < |b| && a[i] < b[i]))
    decreases |a|
  {
    if |a| == 0 {
      if |b| > 0 {
        assert a[..0] == b[..0];
      }
    } else if |b| == 0 {
    } else if a[0] != b[0] {
      if a[0] < b[0] {
        assert a[..0] == b[..0];
      }
      forall i | 0 <= i <= |a| && i <= |b| && a[..i] == b[..i]
        ensures i == 0
      {
      }
    } else {
      StrLessWitness(a[1..], b[1..]);
      if StrLess(a, b) {
        var j :| 0 <= j <= |a| - 1 && j <= |b| - 1 && a[1..][..j] == b[1..][..j] &&
          ((j == |a| - 1 && j < |b| - 1) || (j < |a| - 1 && j < |b| - 1 && a[1..][j] < b[1..][j]));
        assert a[..j + 1] == [a[0]] + a[1..][..j];
        assert b[..j + 1] == [b[0]] + b[1..][..j];
      }
      if exists i :: 0 <= i <= |a| && i <= |b| && a[..i] == b[..i] &&
          ((i == |a| && i < |b|) || (i < |a| && i < |b| && a[i] < b[i])) {
        var i :| 0 <= i <= |a| && i <= |b| && a[..i] == b[..i] &&
          ((i == |a| && i < |b|) || (i < |a| && i < |b| && a[i] < b[i]));
        assert i > 0;
        assert a[1..][..i - 1] == a[..i][1..];
        assert b[1..][..i - 1] == b[..i][1..];
        assert a[1..][..i - 1] == b[1..][..i - 1];
      }
    }
  }

  lemma {:induction false} StrLessIrreflexive(a: string)
    ensures !StrLess(a, a)
    decreases |a|
  {
    if |a| > 0 {
      StrLessIrreflexive(a[1..]);
    }
  }

  lemma {:induction false} StrLessAsymmetric(a: string, b: string)
    ensures StrLess(a, b) ==> !StrLess(b, a)
    decreases |a|
  {
    if |a| > 0 && |b| > 0 && a[0] == b[0] {
      StrLessAsymmetric(a[1..], b[1..]);
    }
  }

  lemma {:induction false} StrLessTransitive(a: string, b: string, c: string)
    requires StrLess(a, b) && StrLess(b, c)
    ensures StrLess(a, c)
    decreases |a|
  {
    if |a| > 0 && a[0] == b[0] && b[0] == c[0] {
      StrLessTransitive(a[1..], b[1..], c[1..]);
    }
  }

  /** Any two distinct strings are ordered one way or the other. */
  lemma {:induction false} StrLessConnected(a: string, b: string)
    requires a != b
    ensures StrLess(a, b) || StrLess(b, a)
    decreases |a|
  {
    if |a| > 0 && |b| > 0 && a[0] == b[0] {
      assert a == [a[0]] + a[1..] && b == [b[0]] + b[1..];
      StrLessConnected(a[1..], b[1..]);
    }
  }

  // ---------------------------------------------------------------------------
  // str.strip()
  // ---------------------------------------------------------------------------

  /** Python's `str.isspace()` for one character: the ASCII controls TAB..CR
      and FS..US, SPACE, NEL, NO-BREAK SPACE, and the Unicode space and
      separator characters. */
  function IsSpace(c: char): (r: bool)
    ensures r ==> !('0' <= c <= '9') && c !in "qQ+-_"
  {
    var n := c as int;
    (0x09 <= n <= 0x0D) || (0x1C <= n <= 0x20) || n == 0x85 || n == 0xA0 ||
    n == 0x1680 || (0x2000 <= n <= 0x200A) || n == 0x2028 || n == 0x2029 ||
    n == 0x202F || n == 0x205F || n == 0x3000
  }

  /** `r` is the infix of `s` starting at `lo`, and everything of `s` outside
      it is whitespace. */
  predicate PaddedBy(s: string, r: string, lo: int) {
    && 0 <= lo && lo + |r| <= |s| && r == s[lo..lo + |r|]
    && (forall i :: 0 <= i < lo ==> IsSpace(s[i]))
    && (forall i :: lo + |r| <= i < |s| ==> IsSpace(s[i]))
  }

  /** `s.lstrip()`: a suffix of `s` after leading whitespace only, not itself
      starting with whitespace. */
  function TrimStart(s: string): (r: string)
    ensures PaddedBy(s, r, |s| - |r|)
    ensures |r| > 0 ==> !IsSpace(r[0])
    decreases |s|
  {
    if |s| > 0 && IsSpace(s[0]) then
      var r := TrimStart(s[1..]);
      assert PaddedBy(s, s[1..], 1);
      PaddedByCompose(s, s[1..], r, 1, |s| - 1 - |r|);
      r
    else
      assert PaddedBy(s, s, 0);
      s
  }

  /** `s.rstrip()`: a prefix of `s` before trailing whitespace only, not itself
      ending with whitespace. */
  function TrimEnd(s: string): (r: string)
    ensures PaddedBy(s, r, 0)
    ensures |r| > 0 ==> !IsSpace(r[|r| - 1])
    decreases |s|
  {
    if |s| > 0 && IsSpace(s[|s| - 1]) then
      var r := TrimEnd(s[..|s| - 1]);
      assert PaddedBy(s, s[..|s| - 1], 0);
      PaddedByCompose(s, s[..|s| - 1], r, 0, 0);
      r
    else
      assert PaddedBy(s, s, 0);
      s
  }

  /** `s.strip()`: an infix of `s` with only whitespace outside it, neither
      starting nor ending with whitespace. */
  function Trim(s: string): (r: string)
    ensures PaddedBy(s, r, |s| - |TrimStart(s)|)
    ensures |r| > 0 ==> !IsSpace(r[0]) && !IsSpace(r[|r| - 1])
  {
    var t := TrimStart(s);
    var r := TrimEnd(t);
    PaddedByCompose(s, t, r, |s| - |t|, 0);
    assert |r| > 0 ==> r[0] == t[0] by {
      if |r| > 0 { assert r == t[0..|r|]; }
    }
    r
  }

  /** Cutting whitespace from `s` to get `t`, then from `t` to get `r`, is
      cutting whitespace from `s` to get `r`: the two offsets add up. */
  lemma PaddedByCompose(s: string, t: string, r: string, a: int, b: int)
    requires PaddedBy(s, t, a) && PaddedBy(t, r, b)
    ensures PaddedBy(s, r, a + b)
  {
    forall i | 0 <= i < a + b ensures IsSpace(s[i]) {
      if i >= a { assert s[i] == t[i - a]; }
    }
    forall i | a + b + |r| <= i < |s| ensures IsSpace(s[i]) {
      if i < a + |t| { assert s[i] == t[i - a]; }
    }
    assert forall k :: 0 <= k < |r| ==> r[k] == t[b + k] == s[a + b + k];
  }

  /** Whitespace around a string does not survive stripping. */
  lemma {:induction false} TrimPadded(pre: string, s: string, post: string)
    requires forall i :: 0 <= i < |pre| ==> IsSpace(pre[i])
    requires forall i :: 0 <= i < |post| ==> IsSpace(post[i])
    requires |s| > 0 ==> !IsSpace(s[0]) && !IsSpace(s[|s| - 1])
    ensures Trim(pre + s + post) == s
  {
    assert pre + s + post == pre + (s + post);
    if |s| == 0 {
      assert pre + s + post == pre + post;
      TrimStartAllSpace(pre + post);
    } else {
      TrimStartPadded(pre, s + post);
      TrimEndPadded(s, post);
    }
  }

  lemma {:induction false} TrimStartPadded(pre: string, s: string)
    requires forall i :: 0 <= i < |pre| ==> IsSpace(pre[i])
    requires |s| > 0 ==> !IsSpace(s[0])
    ensures TrimStart(pre + s) == s
    decreases |pre|
  {
    if |pre| > 0 {
      assert (pre + s)[1..] == pre[1..] + s;
      TrimStartPadded(pre[1..], s);
    } else {
      assert pre + s == s;
    }
  }

  lemma {:induction false} TrimStartAllSpace(s: string)
    requires forall i :: 0 <= i < |s| ==> IsSpace(s[i])
    ensures TrimStart(s) == ""
    decreases |s|
  {
    if |s| > 0 {
      TrimStartAllSpace(s[1..]);
    }
  }

  lemma {:induction false} TrimEndPadded(s: string, post: string)
    requires forall i :: 0 <= i < |post| ==> IsSpace(post[i])
    requires |s| > 0 ==> !IsSpace(s[|s| - 1])
    ensures TrimEnd(s + post) == s
    decreases |post|
  {
    if |post| > 0 {
      assert (s + post)[..|s + post| - 1] == s + post[..|post| - 1];
      TrimEndPadded(s, post[..|post| - 1]);
    } else {
      assert s + post == s;
    }
  }

  // ---------------------------------------------------------------------------
  // Counting
  // ---------------------------------------------------------------------------

  /** Number of occurrences of `c` in `s` (`s.count(c)`). */
  function Count(s: string, c: char): (n: nat)
    ensures n <= |s|
  {
    if |s| == 0 then 0 else (if s[0] == c then 1 else 0) + Count(s[1..], c)
  }

  lemma {:induction false} CountAppend(a: string, b: string, c: char)
    ensures Count(a + b, c) == Count(a, c) + Count(b, c)
    decreases |a|
  {
    if |a| == 0 {
      assert a + b == b;
    } else {
      assert (a + b)[1..] == a[1..] + b;
      CountAppend(a[1..], b, c);
    }
  }
}

=== FILE: wrappers.dfy ===
/** The optional-value datatype used throughout the model: Python's `None`
    (or a missing attribute / dictionary key) is `None`, anything else `Some`. */
module Wrappers {

  datatype Option<+T> = None | Some(value: T) {

    /** The value when present, `default` when missing; an empty value is
        kept (this is not Python's falsy `or`). */
    function GetOr(default: T): T {
      match this
      case Some(v) => v
      case None => default
    }
  }
}
